=== FILE: README.md ===
# eduPulse core, modelled in Dafny

eduPulse is a single-page student-advising application. A student (or an
administrator looking at one student) sees:

- a dashboard of grades;
- a profile editor that recomputes a grade-point average on save;
- a recommendations panel that sends a prompt built from the profile and the
  courses to a language model, and shows the structured answer or one
  localized error.

This project models the core of that application.

- **Types** (`types.dfy`): the domain records and closed enumerations.
- **GeminiService** (`gemini_service.dfy`), the recommendation service:
  - the response schema;
  - the prompt text, line by line;
  - the mapping of every failure to one message per language.
- **ProfileEditing** (`profile_editor.dfy`), the profile editor:
  - its local state as a class whose handlers update it in place;
  - the credit-weighted average;
  - the comma-separated tag fields.
- **AppState** (`app_state.dfy`), the application state as a class:
  - sign-in and sign-out;
  - selection of a student;
  - updates of the in-memory student database;
  - the choice of screen.
- **AdminList** (`admin_list.dfy`), the administrator's student list: search,
  summary figures, status badges.
- **Dashboard** (`dashboard.dfy`): rounded mean grade, courses needing focus,
  bar colours.
- **Recommendations** (`recommendations.dfy`), the recommendations panel:
  - the loading/error/result cycle as a class;
  - which parts of the panel show;
  - card icons and badges.
- **Wrappers, Seqs and Text** (`wrappers.dfy`, `seqs.dfy`, `text.dfy`): the
  library behaviour the components rely on:
  - `filter` and `find`;
  - `join` and `split`;
  - `trim`, `toLowerCase` and `includes`;
  - decimal rendering of integers.

The components' outside dependencies are parameters:

- The network call is a function `send` from the prompt to what the transport
  produced: it threw, or it answered with a possibly missing text.
- `JSON.parse` followed by the unchecked cast is a function `parse` from text to
  an optional value.
- The random id of a new course is a method argument.

Where the code and its documented intent differ, the model follows the code:

- **No validation of the reply.** The service does not validate the parsed
  reply. There is no check of the recommendation kind against the four names,
  of missing fields, or of the 0-100 score range. A reply that parses is
  returned as it is (`NoValidationAfterParse`), and a recommendation's kind is
  kept as the raw string. A reply of `null` is a success too. The panel then
  stores no result and shows its empty state again.
- **One failure message.** Every failure (transport error, empty text, parse
  error) becomes the same localized message (`FailuresLookAlike`). There is no
  distinction between kinds of failure.
- **Empty course list.** An empty course list is not announced in the prompt.
  The course section is then a line of four spaces (`CourseListingLines`).

## Model

| member | source | states |
|---|---|---|
| Types.ParseLearningStyle | types.ts:1-6 | a select value decodes to the style with that name; no style has the name when it does not decode |
| Types.LearningStyleRoundTrip | types.ts:1-6 | every learning style decodes from its own name |
| Types.LearningStyleName | types.ts:1-6 | defined as the enum's string value of each style; properties in LearningStyleRoundTrip |
| Types.ParseRecommendationType | types.ts:28-33 | a kind string decodes to the kind with that name; none of the four has the name when it does not decode |
| Types.RecommendationTypeRoundTrip | types.ts:28-33 | the four kind names are pairwise different and each decodes back to its kind |
| Types.RecommendationTypeName | types.ts:28-33 | defined as the enum's string value of each kind; properties in RecommendationTypeRoundTrip |
| Types.WellFormed | types.ts:35-43 | defined as a kind that is one of the four names and a score in [0, 100], the two comments of the interface; the service does not enforce it (NoValidationAfterParse) |
| GeminiService.SchemaTopLevel | services/geminiService.ts:8-41 | the reply schema is an object whose properties are exactly summary and recommendations, both required |
| GeminiService.SchemaItemFields | services/geminiService.ts:17-36 | the item schema declares exactly the seven Recommendation fields in order and requires all but the fifth, platformOrLink, the one optional field |
| GeminiService.SchemaKindEnum | services/geminiService.ts:22-30 | the kind field is a string enumeration of exactly the four kind names |
| GeminiService.Directive | services/geminiService.ts:49-51 | defined as the instruction naming the chosen language; properties in PromptDirective and PromptNamesLanguage |
| GeminiService.CourseListing | services/geminiService.ts:67 | defined as the course lines joined by line breaks; properties in CourseListingLines and PromptShowsCourses |
| GeminiService.OpeningLines | services/geminiService.ts:53-58 | defined as the template's first six lines, the fourth holding the language directive |
| GeminiService.ProfileLines | services/geminiService.ts:59-64 | defined as the six profile lines, with the values filled in |
| GeminiService.CourseAndTaskLines | services/geminiService.ts:65-74 | defined as the grades heading, the course listing and the fixed task lines |
| GeminiService.PromptLines | services/geminiService.ts:53-74 | the template has 22 lines: the opening, the profile lines, then the courses and the task |
| GeminiService.PromptLineAt | services/geminiService.ts:53-74 | the directive is line 3, the profile lines are lines 6-11, and the grades heading and course listing are lines 13 and 14 |
| GeminiService.Prompt | services/geminiService.ts:53-74 | defined as the template lines joined by line breaks, a function of profile, courses and language alone; properties in PromptDirective, PromptNamesLanguage, PromptShowsProfile, PromptShowsTags and PromptShowsCourses |
| GeminiService.PromptDirective | services/geminiService.ts:49-56 | the directive line carries the chosen language's instruction and not the other language's; every other line is the same in both languages |
| GeminiService.PromptNamesLanguage | services/geminiService.ts:49-56 | the prompt names the language of the reply |
| GeminiService.PromptShowsProfile | services/geminiService.ts:58-62 | the prompt holds the name, major, semester and learning-style lines of the profile, each label and value followed by a line break |
| GeminiService.PromptShowsTags | services/geminiService.ts:63-64 | the prompt holds the interests and weaknesses joined by ", " after their labels, each followed by a line break; an empty list leaves nothing after the label |
| GeminiService.PromptShowsCourses | services/geminiService.ts:66-67 | the course listing appears, indented, on the line right after the grades heading |
| GeminiService.CourseLines | services/geminiService.ts:67 | one line per course, in course order |
| GeminiService.CourseListingLines | services/geminiService.ts:67 | no courses give an empty listing; otherwise, with newline-free names and categories, the listing splits back into exactly the course lines |
| GeminiService.CourseLineSingle | services/geminiService.ts:67 | a course whose name and category hold no line break renders on a single line |
| GeminiService.CourseLine | services/geminiService.ts:67 | defined as "- ", the name, " (", the category, "): " and the grade; properties in CourseLineExample and CourseLineSingle |
| GeminiService.CourseLineExample | services/geminiService.ts:67 | a course renders as "- name (category): grade" |
| GeminiService.FailureMessage | services/geminiService.ts:95 | the failure message of each language is non-empty |
| GeminiService.Outcome | services/geminiService.ts:76-96 | success exactly when the transport answered with a non-empty text that parses, carrying the parsed value unchanged; every failure carries the language's failure message |
| GeminiService.GenerateRecommendations | services/geminiService.ts:43-97 | the call succeeds exactly when the transport answers the prompt built from the inputs with a non-empty text that parses, and then returns the parsed value; every failure reports the language's message |
| GeminiService.FailuresLookAlike | services/geminiService.ts:93-96 | any two failures in one language are equal, whatever their cause, and the two languages' messages differ |
| GeminiService.NoValidationAfterParse | services/geminiService.ts:87-91 | a parsed reply is returned unchanged, including a recommendation with an unknown kind and a score of 150 |
| Seqs.Filter | components/AdminStudentList.tsx:16-19 | the kept elements are exactly those passing the test, with their multiplicities and in their original order |
| Seqs.FilterCount | components/AdminStudentList.tsx:25 | filtering keeps exactly as many elements as pass the test, counted one by one |
| Seqs.CountConcat | components/AdminStudentList.tsx:25 | the number of passing elements of a concatenation is the sum over its parts |
| Seqs.FindFirst | App.tsx:46 | the position found holds a passing element and no earlier one passes; nothing is found exactly when no element passes |
| Text.Join | services/geminiService.ts:63-67 | defined as the elements with the separator between neighbours; properties in SplitJoin, JoinSplit and JoinShowsLine |
| Text.JoinShowsLine | services/geminiService.ts:53-74 | every line of a joined text but the last, followed by the separator, occurs in the text |
| Text.Split | components/ProfileEditor.tsx:121 | splitting gives at least one piece and no piece holds the separator |
| Text.SplitJoin | components/ProfileEditor.tsx:120-121 | joining separator-free pieces and splitting again gives the pieces back |
| Text.JoinSplit | components/ProfileEditor.tsx:120-121 | splitting and joining again gives the text back |
| Text.Trim | components/ProfileEditor.tsx:121 | defined as white space removed from the front and then from the end; properties in TrimSpec, TrimStartDropsSpace and TrimEndDropsSpace |
| Text.TrimSpec | components/ProfileEditor.tsx:121 | the trimmed text is a slice of the input with only white space outside it and none at either of its ends; trimming trimmed text changes nothing |
| Text.TrimStartDropsSpace | components/ProfileEditor.tsx:121 | every character removed from the front is white space |
| Text.TrimEndDropsSpace | components/ProfileEditor.tsx:121 | every character removed from the end is white space |
| Text.AllSpaceAt | components/ProfileEditor.tsx:121 | a text is all white space exactly when each of its characters is |
| Text.TrimAll | components/ProfileEditor.tsx:121 | each piece is trimmed in place, and the count is kept |
| Text.ToLower | App.tsx:26 | lower-casing keeps the length, turns each ASCII capital into its small letter and leaves every other character as it is; properties in SameIgnoringCaseLower |
| Text.SameIgnoringCaseLower | App.tsx:26 | strings that differ only in letter case lower-case to the same string |
| Text.Contains | App.tsx:26 | defined as: the term is a prefix of the text or of one of its suffixes; properties in ContainsAt |
| Text.ContainsAt | App.tsx:26 | the substring test holds exactly when the text occurs at some offset |
| Text.IntToString | services/geminiService.ts:61-67 | a rendering has at least one character, each a digit or a minus sign; properties in NatToStringValue and IntToStringSingleLine |
| Text.NatToStringValue | services/geminiService.ts:61 | the decimal rendering of a number reads back as that number |
| Text.IntToStringSingleLine | services/geminiService.ts:67 | a rendered grade never breaks a prompt line |
| ProfileEditing.GradePoints | components/ProfileEditor.tsx:46-50 | a grade earns 4 points from 85, 3 in [75, 85), 2 in [65, 75), 1 in [50, 65) and 0 below 50, each as an if-and-only-if |
| ProfileEditing.GradePointsMonotone | components/ProfileEditor.tsx:46-50 | a better grade never earns fewer points; grades on the same side of the steps 50, 65, 75 and 85 earn the same points |
| ProfileEditing.TotalCredits | components/ProfileEditor.tsx:44 | the sum of credits, never negative when no course has negative credits |
| ProfileEditing.WeightedPoints | components/ProfileEditor.tsx:45-52 | defined as the sum of grade points times credits; bounds in WeightedPointsBounds |
| ProfileEditing.Gpa | components/ProfileEditor.tsx:44-54 | with positive total credits the average times the credits equals the weighted points; otherwise the average is 0 |
| ProfileEditing.WeightedPointsBounds | components/ProfileEditor.tsx:45-52 | with non-negative credits the weighted points lie between 0 and four times the credits |
| ProfileEditing.GpaBounds | components/ProfileEditor.tsx:54 | with non-negative credits the saved average lies in [0, 4] |
| ProfileEditing.InitialCoursesGpa | constants.ts:13-19 | the initial courses carry 17 credits and 51 weighted points, an average of 3.0 |
| ProfileEditing.ApplyProfileEdit | components/ProfileEditor.tsx:19-21 | the field the edit names takes the edit's value; every other field, including the id, the e-mail and the average, keeps its value |
| ProfileEditing.ProfileEditsOverwrite | components/ProfileEditor.tsx:19-21 | repeating an edit changes nothing more; edits of different fields commute; a later edit of the same field wins |
| ProfileEditing.ApplyCourseEdit | components/ProfileEditor.tsx:23-25 | the course field the edit names takes the edit's value; the id and every other field keep their values |
| ProfileEditing.UpdateCourses | components/ProfileEditor.tsx:23-25 | the courses with the id are edited and all others are untouched; the length and every id are kept |
| ProfileEditing.UpdateCoursesProperties | components/ProfileEditor.tsx:23-25 | editing an absent id is a no-op, and repeating an edit is idempotent |
| ProfileEditing.NewCourse | components/ProfileEditor.tsx:28-34 | defined as the course "New Course" with grade 0, 3 credits and category Core under the given id; used by AddCourse |
| ProfileEditing.RemoveCourses | components/ProfileEditor.tsx:38-40 | no course with the id remains; every other course stays, with its multiplicity and in order |
| ProfileEditing.RemoveAbsentId | components/ProfileEditor.tsx:38-40 | removing an id no course has is a no-op |
| ProfileEditing.TagsText | components/ProfileEditor.tsx:120 | defined as the tags joined by ", "; properties in TagsRoundTrip and EmptyTagsText |
| ProfileEditing.ParseTags | components/ProfileEditor.tsx:121 | the text reads back as at least one tag, each trimmed and comma-free |
| ProfileEditing.ParseTagsLeadingBlank | components/ProfileEditor.tsx:121 | a blank before the text does not change the tags read back |
| ProfileEditing.TagsRoundTrip | components/ProfileEditor.tsx:120-121 | showing a non-empty list of trimmed, comma-free tags and reading the text back gives the same tags |
| ProfileEditing.EmptyTagsText | components/ProfileEditor.tsx:120-121 | an empty list shows as empty text, which reads back as one empty tag |
| ProfileEditing.ProfileEditor.constructor | components/ProfileEditor.tsx:15-16 | the editor starts from the profile and courses it is given |
| ProfileEditing.ProfileEditor.HandleProfileChange | components/ProfileEditor.tsx:19-21 | the local profile receives the edit; the courses are untouched |
| ProfileEditing.ProfileEditor.HandleCourseChange | components/ProfileEditor.tsx:23-25 | the local courses receive the edit; the profile is untouched |
| ProfileEditing.ProfileEditor.AddCourse | components/ProfileEditor.tsx:27-36 | one course named "New Course" is appended, with grade 0, 3 credits and category Core |
| ProfileEditing.ProfileEditor.RemoveCourse | components/ProfileEditor.tsx:38-40 | the local courses lose every course with the id; the profile is untouched |
| ProfileEditing.ProfileEditor.SaveAll | components/ProfileEditor.tsx:42-57 | the saved profile is the local one with only the average replaced by the courses' average, which lies in [0, 4] for non-negative credits; the courses are handed on as they are |
| AppState.IsAdminEmail | App.tsx:26 | defined as "admin" occurring in the lower-cased address; properties in AdminEmailIgnoresCase and AdminAnywhere |
| AppState.AdminEmailIgnoresCase | App.tsx:26 | the administrator check ignores letter case |
| AppState.AdminAnywhere | App.tsx:26 | an address holding "admin" in any letter case, anywhere, signs in as administrator |
| AppState.Chosen | App.tsx:55 | defined as a present, non-empty id, the ids that `!id` does not reject; used by UpdateTarget and Render |
| AppState.LookupId | App.tsx:44-50 | defined as the student's own id for the student role and the selection for an administrator; used by CurrentData and UpdateTarget |
| AppState.CurrentData | App.tsx:44-51 | when a record has the looked-up id, the record shown is the first such record; else it is the first record; there is none only for an empty database |
| AppState.Merge | App.tsx:59-62 | each given part replaces the old one; a missing part keeps the old one |
| AppState.UpdateTarget | App.tsx:54-55 | an update has a target exactly when the role's id is present and non-empty, and that id is the target |
| AppState.UpdateDb | App.tsx:57-65 | the records with the target id are merged and all others are untouched; the length and order are kept |
| AppState.UpdateDbNoChange | App.tsx:53-66 | an update that gives nothing, or names an id no record has, changes nothing |
| AppState.UpdateDbIdempotent | App.tsx:57-65 | repeating an id-keeping update changes nothing more |
| AppState.SaveInTwoSteps | components/ProfileEditor.tsx:56-57 | saving the profile and then the courses equals one combined update, provided the profile keeps its id |
| AppState.UpdateThenLookup | App.tsx:44-66 | after an id-keeping update, the student on screen is the merged record: what was saved is what is shown next |
| AppState.Render | App.tsx:68-115 | sign-in form exactly when signed out; student list exactly for an administrator without a selection; profile and recommendations views only on their tabs, any other tab the dashboard; every student view shows the current record |
| AppState.StudentsNeverSeeList | App.tsx:79-92 | a student never sees the list of all students |
| AppState.App.constructor | App.tsx:12-22 | signed out, student role, dashboard tab, Indonesian, current id "s1", nobody selected |
| AppState.App.View | App.tsx:68-115 | defined as Render of the current state; properties in Render and in the methods' ensures |
| AppState.App.ShowBackButton | App.tsx:125 | the back button shows exactly for an administrator with a selection, and then the screen is not the student list |
| AppState.App.HandleLogin | App.tsx:24-34 | signs in; an "admin" address gives the administrator role with the selection cleared and the list shown; any other address gives the student role with id "s1" |
| AppState.App.HandleLogout | App.tsx:36-41 | signs out to the sign-in form, resetting tab, role and selection; the data and language stay |
| AppState.App.UpdateStudentData | App.tsx:53-66 | without a target the database is unchanged; otherwise it becomes the update of the target; nothing else changes |
| AppState.App.SelectStudent | App.tsx:86-89 | selects the student and opens the dashboard, which shows that student's record |
| AppState.App.Back | App.tsx:126 | clears the selection, returning a signed-in administrator to the list |
| AppState.App.ChangeTab | App.tsx:120 | switches the tab and nothing else |
| AppState.App.SetLanguage | App.tsx:122 | switches the language and nothing else |
| AdminList.Matches | components/AdminStudentList.tsx:16-19 | defined as the lower-cased term occurring in the lower-cased name or major; properties in FilterStudents, SearchIgnoresCase and EmptyTermShowsAll |
| AdminList.FilterStudents | components/AdminStudentList.tsx:16-19 | the rows are exactly the matching students, with their multiplicities and in database order |
| AdminList.EmptyTermShowsAll | components/AdminStudentList.tsx:16-19 | the empty search term shows every student |
| AdminList.SearchIgnoresCase | components/AdminStudentList.tsx:16-19 | search terms differing only in letter case show the same rows |
| AdminList.NameMatchShown | components/AdminStudentList.tsx:17 | a student whose name holds the term in any case is shown |
| AdminList.SumGpa | components/AdminStudentList.tsx:22 | defined as the sum of the averages; bounds in SumGpaBounds |
| AdminList.AverageGpa | components/AdminStudentList.tsx:21-23 | the mean times the student count is the sum of averages; 0 with no students |
| AdminList.SumGpaBounds | components/AdminStudentList.tsx:22 | the sum of averages in [lo, hi] lies in [n lo, n hi] |
| AdminList.AverageGpaBounds | components/AdminStudentList.tsx:21-23 | when every average lies in [lo, hi], so does the mean |
| AdminList.AtRiskCount | components/AdminStudentList.tsx:25 | the count never exceeds the total, and equals it exactly when every average is below 2.75 |
| AdminList.AtRiskCountAdds | components/AdminStudentList.tsx:25 | an empty list counts 0, one student counts 1 exactly when their average is below 2.75, and the count of two lists together is the sum of their counts; together these fix the count of every list |
| AdminList.StatusOf | components/AdminStudentList.tsx:112-116 | Good exactly from 3.0, Average exactly in [2.5, 3.0), At Risk exactly below 2.5 |
| AdminList.BadgeAgainstCount | components/AdminStudentList.tsx:25 | an At Risk badge implies being counted at risk, and a Good badge implies not; an average of 2.6 is counted at risk while badged Average |
| Dashboard.SumGrades | components/Dashboard.tsx:17 | defined as the sum of the grades; bounds in SumGradesBounds |
| Dashboard.RoundedMean | components/Dashboard.tsx:17 | the result is the integer nearest to the mean, halves rounded up |
| Dashboard.AverageGrade | components/Dashboard.tsx:16-18 | the nearest integer to the mean grade, halves up; 0 with no courses |
| Dashboard.SumGradesBounds | components/Dashboard.tsx:17 | the sum of grades in [lo, hi] lies in [n lo, n hi] |
| Dashboard.AverageGradeBounds | components/Dashboard.tsx:16-18 | when every grade lies in [lo, hi], so does the rounded average |
| Dashboard.NeedsFocus | components/Dashboard.tsx:20 | defined as a grade below 75; properties in StrugglingCount and StrugglingMatchesColors |
| Dashboard.StrugglingCount | components/Dashboard.tsx:20 | the count never exceeds the courses, and is 0 exactly when every grade is at least 75 |
| Dashboard.GradeColor | components/Dashboard.tsx:22-27 | green exactly from 85, blue in [75, 85), yellow in [60, 75), red below 60 |
| Dashboard.StrugglingMatchesColors | components/Dashboard.tsx:20-27 | the focus count equals the number of yellow and red bars |
| Dashboard.InitialCoursesAverage | constants.ts:13-19 | on the initial courses the grades sum to 395 and the average shown is 79 |
| Dashboard.InitialCoursesStruggling | constants.ts:13-19 | on the initial courses two courses need focus |
| Recommendations.KindIcon | components/AIRecommendations.tsx:34-37 | each of the four kinds gets a kind-specific icon, never the fallback |
| Recommendations.TypeIcon | components/AIRecommendations.tsx:32-40 | the fallback icon exactly for kinds outside the four names; each known kind gets the icon KindIcon gives it |
| Recommendations.WellFormedHasKindIcon | components/AIRecommendations.tsx:32-40 | a recommendation of a known kind never gets the fallback icon |
| Recommendations.RelevanceColor | components/AIRecommendations.tsx:42-46 | red exactly from 90, orange in [70, 90), green below 70 |
| Recommendations.RelevanceColorMonotone | components/AIRecommendations.tsx:42-46 | a higher score never gets a less urgent badge |
| Recommendations.FailedText | constants.ts:81 | the fallback error text is non-empty |
| Recommendations.FailureTextDiffers | components/AIRecommendations.tsx:26 | the service's failure message is non-empty and is not the fallback text |
| Recommendations.RecommendationPanel.constructor | components/AIRecommendations.tsx:14-16 | no result, not loading, no error |
| Recommendations.RecommendationPanel.Start | components/AIRecommendations.tsx:20-21 | loading starts and the error clears; an earlier result is kept |
| Recommendations.RecommendationPanel.Settle | components/AIRecommendations.tsx:22-29 | a parsed reply replaces the old result, a `null` reply leaving no result; an error records its message, or the fallback for an empty message, and keeps the old result; loading stops either way |
| Recommendations.RecommendationPanel.HandleGenerate | components/AIRecommendations.tsx:19-30 | after a press, loading has stopped; a success stores the parsed reply with no error, and a `null` reply brings the empty state back; a failure shows the service message and keeps the old result; the fallback text never shows |
| Recommendations.RecommendationPanel.ButtonLabel | components/AIRecommendations.tsx:61-75 | "analyzing" exactly while the skeleton shows, "regenerate" exactly while results show, otherwise "analyze" |
| Recommendations.RecommendationPanel.ShowError | components/AIRecommendations.tsx:79 | defined as a non-empty error being set; properties in VisibleParts |
| Recommendations.RecommendationPanel.ShowEmptyState | components/AIRecommendations.tsx:86 | defined as no result, no request and no error shown; properties in VisibleParts and HandleGenerate |
| Recommendations.RecommendationPanel.ShowSkeleton | components/AIRecommendations.tsx:99 | defined as a request running; properties in ButtonLabel and VisibleParts |
| Recommendations.RecommendationPanel.ShowResults | components/AIRecommendations.tsx:112 | defined as a result present with no request running; properties in ButtonLabel and VisibleParts |
| Recommendations.RecommendationPanel.VisibleParts | components/AIRecommendations.tsx:79-112 | skeleton, empty state and results never show together; the panel shows none of them only when an error shows with no result and no request |

## Left out

- The language-model SDK, the API key, the model name and the sampling temperature 0.4. The transport is a parameter.
- The inside of `JSON.parse`. It is a parameter that yields a value or nothing.
- Recommendations.RecommendationPanel.HandleGenerate: the parsed reply is either `null` or an object shaped like `AnalysisResult`. A reply that parses to another JSON value (a number, a string, a boolean, an array, or an object missing `summary` or `recommendations`) is not modelled. In the source such a reply is stored. A falsy value (`0`, `false`, `""`) then behaves like `null`: the empty state shows (AIRecommendations.tsx:86) and the results view stays hidden (AIRecommendations.tsx:112). An object with a `recommendations` array but no `summary` renders with an empty summary (AIRecommendations.tsx:123). Any other truthy value fails at the `map` of AIRecommendations.tsx:130. The same holds for Recommendations.RecommendationPanel.Settle.
- The free-text descriptions attached to schema fields. These are hints to the model with no effect on the code's behaviour.
- Logging of the underlying error to the console.
- The success alert after saving.
- Rendering:
  - JSX markup, CSS classes and charts;
  - the layout shell;
  - the sign-in form, whose only effect on the core is the call of `HandleLogin`.
- React's batching of state updates. Each handler is one atomic method.
- The asynchrony of the request. It is modelled as the two steps `Start` and `Settle`, which `HandleGenerate` composes.
- The random id of a new course. It is an argument of `AddCourse`.
- The student data set loaded at start. App.tsx:8 imports `MOCK_STUDENTS_DB` from constants.ts, but constants.ts does not define it. The database is therefore the argument of the `App` constructor.
- Language switching within the sign-in form. It is the same `SetLanguage`.
- The localized labels of the panel's button. Which label shows is modelled; the texts themselves are not.
- The `NoData` screen. It stands for rendering with an empty database, where the source would fail while destructuring an absent record.
- The default argument `language = 'en'` of `generateRecommendations` (services/geminiService.ts:46). The only caller passes the language, so the model's `lang` parameter has no default.
- `parseInt` of a non-number (NaN) in the number inputs. Edits carry integers.
- Text.ToLower: lower-cases ASCII letters only. The source's `toLowerCase` folds all of Unicode.
- ProfileEditing.Gpa: uses exact rational arithmetic, not IEEE 754 doubles, so rounding in the last bit is not modelled.
- AdminList.AverageGpa: the two-decimal formatting with `toFixed(2)` of the shown figures is not modelled; the contract is about the exact mean. The same applies to the averages shown in the dashboard and in the table.
- GeminiService.PromptDirective: states that the directive slot holds the chosen language's instruction. It does not state that no other line contains a directive, because user-supplied fields could contain such text.
- The score badge text, the card text fields and the link button. These are display only.

=== FILE: admin_list.dfy ===
/** The administrator's list of students: the search filter, the summary
    figures over all students, and the status badge of each row. */
module AdminList {
  import opened Seqs
  import opened Text
  import opened Types

  // ---------------------------------------------------------------------------
  // Search

  /** A student matches when the lower-cased search term occurs in the
      lower-cased name or the lower-cased major. */
  predicate Matches(term: string, s: StudentData)
  {
    var t := ToLower(term);
    Contains(ToLower(s.profile.name), t) || Contains(ToLower(s.profile.major), t)
  }

  /** The rows shown: the matching students, in database order. */
  function FilterStudents(students: seq<StudentData>, term: string): (r: seq<StudentData>)
    ensures forall s :: s in r <==> s in students && Matches(term, s)
    ensures forall s :: multiset(r)[s] == if Matches(term, s) then multiset(students)[s] else 0
    ensures IsSubsequence(r, students)
  {
    Filter(students, (s: StudentData) => Matches(term, s))
  }

  /** The empty search term shows every student. */
  lemma EmptyTermShowsAll(students: seq<StudentData>)
    ensures FilterStudents(students, "") == students
  {
    forall i | 0 <= i < |students| ensures Matches("", students[i]) {
      assert ToLower("") == "";
      assert "" <= ToLower(students[i].profile.name);
    }
    FilterKeepsAll(students, (s: StudentData) => Matches("", s));
  }

  /** The search ignores the letter case of the term. */
  lemma SearchIgnoresCase(students: seq<StudentData>, t1: string, t2: string)
    requires SameIgnoringCase(t1, t2)
    ensures FilterStudents(students, t1) == FilterStudents(students, t2)
  {
    SameIgnoringCaseLower(t1, t2);
    FilterAgree(students, (s: StudentData) => Matches(t1, s), (s: StudentData) => Matches(t2, s));
  }

  /** A student whose name holds the term in any letter case is shown. */
  lemma NameMatchShown(students: seq<StudentData>, i: nat, term: string)
    requires i < |students|
    requires Contains(ToLower(students[i].profile.name), ToLower(term))
    ensures students[i] in FilterStudents(students, term)
  {
  }

  // ---------------------------------------------------------------------------
  // Summary figures

  /** Sum of the averages of all students. */
  function SumGpa(students: seq<StudentData>): real
  {
    if |students| == 0 then 0.0 else students[0].profile.gpa + SumGpa(students[1..])
  }

  /** The mean of all averages; 0 for an empty list. */
  function AverageGpa(students: seq<StudentData>): (avg: real)
    ensures |students| == 0 ==> avg == 0.0
    ensures |students| > 0 ==> avg * |students| as real == SumGpa(students)
  {
    if |students| > 0 then SumGpa(students) / |students| as real else 0.0
  }

  /** A sum of values between `lo` and `hi` lies between `n * lo` and `n * hi`. */
  lemma {:induction false} SumGpaBounds(students: seq<StudentData>, lo: real, hi: real)
    requires forall i :: 0 <= i < |students| ==> lo <= students[i].profile.gpa <= hi
    ensures |students| as real * lo <= SumGpa(students) <= |students| as real * hi
  {
    if |students| > 0 {
      SumGpaBounds(students[1..], lo, hi);
    }
  }

  /** When every average lies in [lo, hi], so does their mean. */
  lemma AverageGpaBounds(students: seq<StudentData>, lo: real, hi: real)
    requires |students| > 0
    requires forall i :: 0 <= i < |students| ==> lo <= students[i].profile.gpa <= hi
    ensures lo <= AverageGpa(students) <= hi
  {
    SumGpaBounds(students, lo, hi);
    var n := |students| as real;
    var avg := AverageGpa(students);
    assert avg * n == SumGpa(students);
    assert n * lo <= n * avg <= n * hi;
  }

  /** The threshold below which a student counts as at risk. */
  const AtRiskThreshold: real := 2.75

  /** The number of students whose average is below 2.75. */
  function AtRiskCount(students: seq<StudentData>): (n: nat)
    ensures n <= |students|
    ensures n == |students| <==> forall i :: 0 <= i < |students| ==> students[i].profile.gpa < AtRiskThreshold
  {
    var risky := (s: StudentData) => s.profile.gpa < AtRiskThreshold;
    FilterAll(students, risky);
    |Filter(students, risky)|
  }

  /** The count adds up student by student: no one is counted in an empty
      list, one student counts 1 exactly when their average is below 2.75, and
      the count of two lists put together is the sum of their counts. */
  lemma AtRiskCountAdds(a: seq<StudentData>, b: seq<StudentData>, s: StudentData)
    ensures AtRiskCount([]) == 0
    ensures AtRiskCount([s]) == if s.profile.gpa < AtRiskThreshold then 1 else 0
    ensures AtRiskCount(a + b) == AtRiskCount(a) + AtRiskCount(b)
  {
    var risky := (x: StudentData) => x.profile.gpa < AtRiskThreshold;
    FilterCount(a + b, risky);
    FilterCount(a, risky);
    FilterCount(b, risky);
    FilterCount([s], risky);
    CountConcat(a, b, risky);
  }

  // ---------------------------------------------------------------------------
  // The status badge

  datatype Status = Good | Average | AtRisk

  /** The badge of one row: Good from 3.0, Average from 2.5, At Risk below. */
  function StatusOf(gpa: real): (s: Status)
    ensures s == Good <==> gpa >= 3.0
    ensures s == Average <==> 2.5 <= gpa < 3.0
    ensures s == AtRisk <==> gpa < 2.5
  {
    if gpa >= 3.0 then Good else if gpa >= 2.5 then Average else AtRisk
  }

  /** A row badged At Risk is counted in the at-risk figure, and a row badged
      Good is not; but an average of 2.6 is counted while badged Average. */
  lemma BadgeAgainstCount(students: seq<StudentData>, i: nat)
    requires i < |students|
    ensures StatusOf(students[i].profile.gpa) == AtRisk ==>
              students[i] in Filter(students, (s: StudentData) => s.profile.gpa < AtRiskThreshold)
    ensures StatusOf(students[i].profile.gpa) == Good ==>
              students[i].profile.gpa >= AtRiskThreshold
    ensures StatusOf(2.6) == Average && 2.6 < AtRiskThreshold
  {
  }
}

=== FILE: app_state.dfy ===
/** The top-level application state: who is signed in, which tab is open,
    the in-memory student database, and which student is being viewed. */
module AppState {
  import opened Wrappers
  import opened Seqs
  import opened Text
  import opened Types

  // ---------------------------------------------------------------------------
  // Sign-in

  /** The fixed id a student account is mapped to. */
  const DefaultStudentId: string := "s1"

  /** The tab shown after signing out and after choosing a student. */
  const DashboardTab: string := "dashboard"
  const ProfileTab: string := "profile"
  const RecommendationsTab: string := "recommendations"

  /** An account is an administrator when "admin" occurs in its lower-cased
      e-mail address. */
  predicate IsAdminEmail(email: string)
  {
    Contains(ToLower(email), "admin")
  }

  /** The role check ignores letter case. */
  lemma AdminEmailIgnoresCase(a: string, b: string)
    requires SameIgnoringCase(a, b)
    ensures IsAdminEmail(a) <==> IsAdminEmail(b)
  {
    SameIgnoringCaseLower(a, b);
  }

  /** Any address holding "admin" in some letter case names an administrator. */
  lemma AdminAnywhere(before: string, word: string, after: string)
    requires SameIgnoringCase(word, "admin")
    ensures IsAdminEmail(before + word + after)
  {
    SameIgnoringCaseLower(word, "admin");
    ToLowerConcat(before, word, after);
    assert ToLower("admin") == "admin";
    ContainsInfix(ToLower(before), "admin", ToLower(after));
  }

  lemma ToLowerConcat(a: string, b: string, c: string)
    ensures ToLower(a + b + c) == ToLower(a) + ToLower(b) + ToLower(c)
  {
  }

  // ---------------------------------------------------------------------------
  // Finding and updating the student on screen

  /** A selection counts as present only when it is a non-empty id: the
      source tests it with `!id`, and both `null` and "" are falsy. */
  predicate Chosen(id: Option<string>)
  {
    id.Some? && id.value != ""
  }

  /** The id that is looked up: the signed-in student's own, or the one the
      administrator selected. */
  function LookupId(role: UserRole, currentId: string, selected: Option<string>): Option<string>
  {
    if role == Student then Some(currentId) else selected
  }

  /** The record of the student on screen: the first record whose id is the
      looked-up id, or else the first record; nothing when the database is empty. */
  function CurrentData(db: seq<StudentData>, key: Option<string>): (r: Option<StudentData>)
    ensures r.None? <==> |db| == 0
    ensures r.Some? ==> r.value in db
    ensures r.Some? && key.Some? && (exists i :: 0 <= i < |db| && db[i].profile.id == key.value) ==>
              r.value.profile.id == key.value
    ensures r.Some? && key.Some? && (exists i :: 0 <= i < |db| && db[i].profile.id == key.value) ==>
              exists i :: 0 <= i < |db| && r.value == db[i] && db[i].profile.id == key.value &&
                forall j :: 0 <= j < i ==> db[j].profile.id != key.value
    ensures |db| > 0 && (key.None? || forall i :: 0 <= i < |db| ==> db[i].profile.id != key.value) ==>
              r == Some(db[0])
  {
    match FindFirst(db, (s: StudentData) => key == Some(s.profile.id))
    case Some(i) => Some(db[i])
    case None => if |db| == 0 then None else Some(db[0])
  }

  /** The record an update writes: each part that is given replaces the old one. */
  function Merge(s: StudentData, newProfile: Option<StudentProfile>, newCourses: Option<seq<Course>>): (r: StudentData)
    ensures newProfile.Some? ==> r.profile == newProfile.value
    ensures newProfile.None? ==> r.profile == s.profile
    ensures newCourses.Some? ==> r.courses == newCourses.value
    ensures newCourses.None? ==> r.courses == s.courses
  {
    StudentData(newProfile.GetOr(s.profile), newCourses.GetOr(s.courses))
  }

  /** The id an update applies to; none when the role's id is missing or empty. */
  function UpdateTarget(role: UserRole, currentId: string, selected: Option<string>): (t: Option<string>)
    ensures t.Some? <==> Chosen(LookupId(role, currentId, selected))
    ensures t.Some? ==> t == LookupId(role, currentId, selected)
  {
    var k := LookupId(role, currentId, selected);
    if Chosen(k) then k else None
  }

  /** The database after an update of `target`: every record with that id is
      merged, every other record is left as it is, and the order is kept. */
  function UpdateDb(db: seq<StudentData>, target: string, newProfile: Option<StudentProfile>,
                    newCourses: Option<seq<Course>>): (r: seq<StudentData>)
    ensures |r| == |db|
    ensures forall i :: 0 <= i < |db| && db[i].profile.id != target ==> r[i] == db[i]
    ensures forall i :: 0 <= i < |db| && db[i].profile.id == target ==>
              r[i] == Merge(db[i], newProfile, newCourses)
  {
    seq(|db|, i requires 0 <= i < |db| =>
      if db[i].profile.id == target then Merge(db[i], newProfile, newCourses) else db[i])
  }

  /** An update that gives nothing, or that names an id no record has,
      changes nothing. */
  lemma UpdateDbNoChange(db: seq<StudentData>, target: string, newProfile: Option<StudentProfile>,
                         newCourses: Option<seq<Course>>)
    requires (newProfile.None? && newCourses.None?) ||
             (forall i :: 0 <= i < |db| ==> db[i].profile.id != target)
    ensures UpdateDb(db, target, newProfile, newCourses) == db
  {
    var r := UpdateDb(db, target, newProfile, newCourses);
    forall i | 0 <= i < |db| ensures r[i] == db[i] {
      if db[i].profile.id == target {
        assert newProfile.None? && newCourses.None?;
        assert r[i] == StudentData(db[i].profile, db[i].courses);
      }
    }
  }

  /** Updating twice with the same parts is updating once, as long as the new
      profile keeps the target id. */
  lemma UpdateDbIdempotent(db: seq<StudentData>, target: string, newProfile: Option<StudentProfile>,
                           newCourses: Option<seq<Course>>)
    requires newProfile.Some? ==> newProfile.value.id == target
    ensures UpdateDb(UpdateDb(db, target, newProfile, newCourses), target, newProfile, newCourses)
            == UpdateDb(db, target, newProfile, newCourses)
  {
  }

  /** Saving in the editor writes the profile and then the courses, as two
      updates of the same target. As long as the new profile keeps the
      target's id, the two updates together are the one combined update. */
  lemma SaveInTwoSteps(db: seq<StudentData>, target: string, p: StudentProfile, cs: seq<Course>)
    requires p.id == target
    ensures UpdateDb(UpdateDb(db, target, Some(p), None), target, None, Some(cs))
            == UpdateDb(db, target, Some(p), Some(cs))
  {
  }

  /** After an update that keeps the target's id, looking the target up finds
      the merged record: what was saved is what is shown next. */
  lemma {:induction false} UpdateThenLookup(db: seq<StudentData>, target: string,
                                            newProfile: Option<StudentProfile>, newCourses: Option<seq<Course>>)
    requires newProfile.Some? ==> newProfile.value.id == target
    requires exists i :: 0 <= i < |db| && db[i].profile.id == target
    ensures CurrentData(UpdateDb(db, target, newProfile, newCourses), Some(target))
            == Some(Merge(CurrentData(db, Some(target)).value, newProfile, newCourses))
  {
    var r := UpdateDb(db, target, newProfile, newCourses);
    var p := (s: StudentData) => Some(target) == Some(s.profile.id);
    forall i | 0 <= i < |db| ensures p(r[i]) == p(db[i]) {
    }
    FindFirstAgree(db, r, p);
  }

  // ---------------------------------------------------------------------------
  // What is on screen

  datatype Screen =
    | LoginScreen
    | StudentList(students: seq<StudentData>)
    | DashboardView(data: StudentData)
    | ProfileView(data: StudentData)
    | RecommendationsView(data: StudentData)
    | NoData   // the database is empty: the source would fail to destructure

  /** The screen for a given state: the sign-in form when signed out, the
      student list for an administrator who has chosen nobody, and otherwise
      the open tab for the student on screen, unknown tabs showing the dashboard. */
  function Render(loggedIn: bool, role: UserRole, tab: string, db: seq<StudentData>,
                  currentId: string, selected: Option<string>): (v: Screen)
    ensures v == LoginScreen <==> !loggedIn
    ensures v.StudentList? <==> loggedIn && role == Admin && !Chosen(selected)
    ensures v.StudentList? ==> v.students == db
    ensures v == NoData <==> loggedIn && (role == Student || Chosen(selected)) && |db| == 0
    ensures v.ProfileView? ==> tab == ProfileTab
    ensures v.RecommendationsView? ==> tab == RecommendationsTab
    ensures v.DashboardView? ==> tab != ProfileTab && tab != RecommendationsTab
    ensures v.DashboardView? || v.ProfileView? || v.RecommendationsView? ==>
              Some(v.data) == CurrentData(db, LookupId(role, currentId, selected))
  {
    if !loggedIn then LoginScreen
    else if role == Admin && !Chosen(selected) then StudentList(db)
    else
      match CurrentData(db, LookupId(role, currentId, selected))
      case None => NoData
      case Some(d) =>
        if tab == DashboardTab then DashboardView(d)
        else if tab == ProfileTab then ProfileView(d)
        else if tab == RecommendationsTab then RecommendationsView(d)
        else DashboardView(d)
  }

  /** A student never sees the list of all students. */
  lemma StudentsNeverSeeList(loggedIn: bool, tab: string, db: seq<StudentData>,
                             currentId: string, selected: Option<string>)
    ensures !Render(loggedIn, Student, tab, db, currentId, selected).StudentList?
  {
  }

  // ---------------------------------------------------------------------------
  // The component's state

  class App {
    var isLoggedIn: bool
    var userRole: UserRole
    var activeTab: string
    var language: Language
    var studentsDb: seq<StudentData>
    var currentStudentId: string
    var selectedStudentId: Option<string>

    /** Signed out, as a student on the dashboard, in Indonesian, with
        student "s1" current and nobody selected. */
    constructor (db: seq<StudentData>)
      ensures !isLoggedIn && userRole == Student && activeTab == DashboardTab
      ensures language == Id && studentsDb == db
      ensures currentStudentId == DefaultStudentId && selectedStudentId == None
    {
      isLoggedIn := false;
      userRole := Student;
      activeTab := DashboardTab;
      language := Id;
      studentsDb := db;
      currentStudentId := DefaultStudentId;
      selectedStudentId := None;
    }

    /** What the application shows in the current state. */
    function View(): Screen
      reads this
    {
      Render(isLoggedIn, userRole, activeTab, studentsDb, currentStudentId, selectedStudentId)
    }

    /** The back button shows while an administrator looks at one student. */
    function ShowBackButton(): (b: bool)
      reads this
      ensures b <==> userRole == Admin && Chosen(selectedStudentId)
      ensures b && isLoggedIn ==> !View().StudentList? && View() != LoginScreen
    {
      userRole == Admin && Chosen(selectedStudentId)
    }

    /** Signs in: administrators start at the student list, students are
        mapped to "s1"; the rest of the state is kept. */
    method HandleLogin(email: string)
      modifies this
      ensures isLoggedIn
      ensures userRole == (if IsAdminEmail(email) then Admin else Student)
      ensures IsAdminEmail(email) ==>
                selectedStudentId == None && currentStudentId == old(currentStudentId)
      ensures !IsAdminEmail(email) ==>
                currentStudentId == DefaultStudentId && selectedStudentId == old(selectedStudentId)
      ensures activeTab == old(activeTab) && language == old(language) && studentsDb == old(studentsDb)
      ensures IsAdminEmail(email) ==> View() == StudentList(studentsDb)
    {
      if IsAdminEmail(email) {
        userRole := Admin;
        selectedStudentId := None;
      } else {
        userRole := Student;
        currentStudentId := DefaultStudentId;
      }
      isLoggedIn := true;
    }

    /** Signs out and resets the role, the tab and the selection; the data
        and the language stay. */
    method HandleLogout()
      modifies this
      ensures !isLoggedIn && activeTab == DashboardTab && userRole == Student
      ensures selectedStudentId == None
      ensures currentStudentId == old(currentStudentId) && language == old(language)
      ensures studentsDb == old(studentsDb)
      ensures View() == LoginScreen
    {
      isLoggedIn := false;
      activeTab := DashboardTab;
      userRole := Student;
      selectedStudentId := None;
    }

    /** Writes a new profile and/or new courses into the record of the student
        on screen; does nothing when there is no target id. */
    method UpdateStudentData(newProfile: Option<StudentProfile>, newCourses: Option<seq<Course>>)
      modifies this
      ensures UpdateTarget(userRole, currentStudentId, selectedStudentId).None? ==>
                studentsDb == old(studentsDb)
      ensures UpdateTarget(userRole, currentStudentId, selectedStudentId).Some? ==>
                studentsDb == UpdateDb(old(studentsDb),
                                       UpdateTarget(userRole, currentStudentId, selectedStudentId).value,
                                       newProfile, newCourses)
      ensures isLoggedIn == old(isLoggedIn) && userRole == old(userRole)
      ensures activeTab == old(activeTab) && language == old(language)
      ensures currentStudentId == old(currentStudentId) && selectedStudentId == old(selectedStudentId)
    {
      var target := UpdateTarget(userRole, currentStudentId, selectedStudentId);
      if target.Some? {
        studentsDb := UpdateDb(studentsDb, target.value, newProfile, newCourses);
      }
    }

    /** An administrator picks a student from the list; the dashboard opens. */
    method SelectStudent(id: string)
      modifies this
      ensures selectedStudentId == Some(id) && activeTab == DashboardTab
      ensures isLoggedIn == old(isLoggedIn) && userRole == old(userRole) && language == old(language)
      ensures studentsDb == old(studentsDb) && currentStudentId == old(currentStudentId)
      ensures isLoggedIn && userRole == Admin && id != "" && |studentsDb| > 0 ==>
                View() == DashboardView(CurrentData(studentsDb, Some(id)).value)
    {
      selectedStudentId := Some(id);
      activeTab := DashboardTab;
    }

    /** The back button clears the selection, returning an administrator to
        the list. */
    method Back()
      modifies this
      ensures selectedStudentId == None
      ensures isLoggedIn == old(isLoggedIn) && userRole == old(userRole) && activeTab == old(activeTab)
      ensures language == old(language) && studentsDb == old(studentsDb)
      ensures currentStudentId == old(currentStudentId)
      ensures isLoggedIn && userRole == Admin ==> View() == StudentList(studentsDb)
    {
      selectedStudentId := None;
    }

    /** The navigation switches the tab and nothing else. */
    method ChangeTab(tab: string)
      modifies this
      ensures activeTab == tab
      ensures isLoggedIn == old(isLoggedIn) && userRole == old(userRole) && language == old(language)
      ensures studentsDb == old(studentsDb) && currentStudentId == old(currentStudentId)
      ensures selectedStudentId == old(selectedStudentId)
    {
      activeTab := tab;
    }

    /** The language switch changes the language and nothing else. */
    method SetLanguage(lang: Language)
      modifies this
      ensures language == lang
      ensures isLoggedIn == old(isLoggedIn) && userRole == old(userRole) && activeTab == old(activeTab)
      ensures studentsDb == old(studentsDb) && currentStudentId == old(currentStudentId)
      ensures selectedStudentId == old(selectedStudentId)
    {
      language := lang;
    }
  }
}

=== FILE: dashboard.dfy ===
/** The dashboard figures of one student: the rounded mean grade, the number
    of courses that need focus, and the colour of each course's bar. */
module Dashboard {
  import opened Seqs
  import opened Types
  import ProfileEditing

  /** Sum of the grades of all courses. */
  function SumGrades(cs: seq<Course>): int
  {
    if |cs| == 0 then 0 else cs[0].grade + SumGrades(cs[1..])
  }

  /** `Math.round(s / n)` for a positive `n`: the integer nearest to s / n,
      halves rounded up. */
  function RoundedMean(s: int, n: int): (r: int)
    requires n > 0
    ensures 2 * n * r <= 2 * s + n < 2 * n * r + 2 * n
  {
    (2 * s + n) / (2 * n)
  }

  /** The average grade shown; 0 when there are no courses. */
  function AverageGrade(cs: seq<Course>): (avg: int)
    ensures |cs| == 0 ==> avg == 0
    ensures |cs| > 0 ==> 2 * |cs| * avg <= 2 * SumGrades(cs) + |cs| < 2 * |cs| * avg + 2 * |cs|
  {
    if |cs| > 0 then RoundedMean(SumGrades(cs), |cs|) else 0
  }

  /** A sum of grades between `lo` and `hi` lies between `n * lo` and `n * hi`. */
  lemma {:induction false} SumGradesBounds(cs: seq<Course>, lo: int, hi: int)
    requires forall i :: 0 <= i < |cs| ==> lo <= cs[i].grade <= hi
    ensures |cs| * lo <= SumGrades(cs) <= |cs| * hi
  {
    if |cs| > 0 {
      SumGradesBounds(cs[1..], lo, hi);
    }
  }

  /** When every grade lies in [lo, hi], so does the rounded average; in
      particular grades of 0-100 give an average of 0-100. */
  lemma AverageGradeBounds(cs: seq<Course>, lo: int, hi: int)
    requires |cs| > 0
    requires forall i :: 0 <= i < |cs| ==> lo <= cs[i].grade <= hi
    ensures lo <= AverageGrade(cs) <= hi
  {
    SumGradesBounds(cs, lo, hi);
    RoundedMeanBounds(SumGrades(cs), |cs|, AverageGrade(cs), lo, hi);
  }

  /** The rounded mean of a sum between `n * lo` and `n * hi` lies in [lo, hi]. */
  lemma RoundedMeanBounds(s: int, n: int, r: int, lo: int, hi: int)
    requires n > 0 && n * lo <= s <= n * hi
    requires 2 * n * r <= 2 * s + n < 2 * n * r + 2 * n
    ensures lo <= r <= hi
  {
    if r > hi {
      MulMonotone(2 * n, hi + 1, r);
    }
    if r < lo {
      MulMonotone(2 * n, r + 1, lo);
    }
  }

  lemma MulMonotone(a: int, b: int, c: int)
    requires a >= 0 && b <= c
    ensures a * b <= a * c
  {
    assert a * c - a * b == a * (c - b);
  }

  /** The grade below which a course needs focus. */
  const FocusThreshold: int := 75

  /** A course needs focus when graded below 75. */
  predicate NeedsFocus(c: Course)
  {
    c.grade < FocusThreshold
  }

  /** The number of courses graded below 75. */
  function StrugglingCount(cs: seq<Course>): (n: nat)
    ensures n <= |cs|
    ensures n == 0 <==> forall i :: 0 <= i < |cs| ==> cs[i].grade >= FocusThreshold
  {
    FilterNone(cs, NeedsFocus);
    |Filter(cs, NeedsFocus)|
  }

  datatype BarColor = Green | Blue | Yellow | Red

  /** The bar colour of a grade: green from 85, blue from 75, yellow from 60,
      red below. */
  function GradeColor(grade: int): (c: BarColor)
    ensures c == Green <==> grade >= 85
    ensures c == Blue <==> 75 <= grade < 85
    ensures c == Yellow <==> 60 <= grade < 75
    ensures c == Red <==> grade < 60
  {
    if grade >= 85 then Green
    else if grade >= 75 then Blue
    else if grade >= 60 then Yellow
    else Red
  }

  /** A bar is drawn in a warning colour exactly when its course needs focus,
      so the count shown equals the number of yellow and red bars. */
  lemma StrugglingMatchesColors(cs: seq<Course>)
    ensures StrugglingCount(cs) ==
            |Filter(cs, (c: Course) => GradeColor(c.grade) == Yellow || GradeColor(c.grade) == Red)|
  {
    FilterAgree(cs, NeedsFocus,
                    (c: Course) => GradeColor(c.grade) == Yellow || GradeColor(c.grade) == Red);
  }

  /** On the initial courses: grades summing to 395, an average of 79. */
  lemma InitialCoursesAverage()
    ensures SumGrades(ProfileEditing.InitialCourses) == 395
    ensures AverageGrade(ProfileEditing.InitialCourses) == 79
  {
    var cs := ProfileEditing.InitialCourses;
    assert SumGrades(cs[4..]) == 72;
    assert SumGrades(cs[3..]) == 150;
    assert SumGrades(cs[2..]) == 242;
    assert SumGrades(cs[1..]) == 307;
    assert RoundedMean(395, 5) == 79;
  }

  /** On the initial courses: two courses need focus, Calculus II and Physics I. */
  lemma InitialCoursesStruggling()
    ensures StrugglingCount(ProfileEditing.InitialCourses) == 2
  {
    var cs := ProfileEditing.InitialCourses;
    assert cs[4].grade == 72 && cs[3].grade == 78 && cs[2].grade == 92;
    assert cs[1].grade == 65 && cs[0].grade == 88;
    FocusCountStep(cs, 4);
    FocusCountStep(cs, 3);
    FocusCountStep(cs, 2);
    FocusCountStep(cs, 1);
    FocusCountStep(cs, 0);
  }

  /** Counting from position `k` on: the course at `k`, then the rest. */
  lemma FocusCountStep(cs: seq<Course>, k: nat)
    requires k < |cs|
    ensures |Filter(cs[k..], NeedsFocus)| ==
            (if NeedsFocus(cs[k]) then 1 else 0) + |Filter(cs[k + 1..], NeedsFocus)|
  {
    assert cs[k..][1..] == cs[k + 1..];
  }
}

=== FILE: gemini_service.dfy ===
/** The recommendation request: the prompt built from a student's data, the
    response schema sent with it, and the mapping of the call's outcome to a
    result or to one localized error.

    The network call is the parameter `send` (it receives the prompt and yields
    what the transport produced); `JSON.parse` followed by the unchecked cast
    is the parameter `parse`, which yields `None` where `JSON.parse` throws. */
module GeminiService {
  import opened Wrappers
  import opened Text
  import opened Types

  // ---------------------------------------------------------------------------
  // Response schema

  datatype SchemaType =
    | StringType
    | IntegerType
    | EnumType(values: seq<string>)
    | ArrayType(items: SchemaType)
    | ObjectType(properties: seq<Property>, required: seq<string>)

  datatype Property = Property(name: string, schema: SchemaType)

  function PropertyNames(ps: seq<Property>): (r: seq<string>)
    ensures |r| == |ps|
    ensures forall i :: 0 <= i < |ps| ==> r[i] == ps[i].name
  {
    if |ps| == 0 then [] else [ps[0].name] + PropertyNames(ps[1..])
  }

  /** The item schema: the seven `Recommendation` fields, the kind restricted
      to the four `RecommendationType` names. */
  const RecommendationItemSchema: SchemaType :=
    ObjectType(
      [ Property("id", StringType),
        Property("title", StringType),
        Property("type", EnumType(["Online Course", "Study Material", "Study Group", "Learning Strategy"])),
        Property("description", StringType),
        Property("platformOrLink", StringType),
        Property("relevanceScore", IntegerType),
        Property("reasoning", StringType) ],
      ["id", "title", "type", "description", "relevanceScore", "reasoning"])

  /** The schema of the whole reply. */
  const RecommendationSchema: SchemaType :=
    ObjectType(
      [ Property("summary", StringType),
        Property("recommendations", ArrayType(RecommendationItemSchema)) ],
      ["summary", "recommendations"])

  /** The reply must carry both top-level fields, and nothing else is declared. */
  lemma SchemaTopLevel()
    ensures RecommendationSchema.ObjectType?
    ensures PropertyNames(RecommendationSchema.properties) == RecommendationSchema.required
    ensures RecommendationSchema.required == ["summary", "recommendations"]
  {
  }

  /** The item schema declares exactly the fields of `Recommendation`, and
      requires all of them but the fifth, `platformOrLink`, the one field
      `Recommendation` makes optional. */
  lemma SchemaItemFields()
    ensures RecommendationItemSchema.ObjectType?
    ensures PropertyNames(RecommendationItemSchema.properties) == RecommendationFields
    ensures RecommendationItemSchema.required == RecommendationFields[..4] + RecommendationFields[5..]
    ensures OptionalRecommendationFields == {RecommendationFields[4]}
  {
  }

  /** The enumeration in the schema accepts exactly the names of the four kinds. */
  lemma SchemaKindEnum()
    ensures RecommendationItemSchema.ObjectType?
    ensures var kind := RecommendationItemSchema.properties[2];
      kind.name == "type" && kind.schema.EnumType? &&
      (forall s :: s in kind.schema.values <==> ParseRecommendationType(s).Some?)
  {
  }

  // ---------------------------------------------------------------------------
  // Prompt

  /** How the directive names each language. */
  function LanguageName(lang: Language): string
  {
    match lang
    case Id => "BAHASA INDONESIA"
    case En => "ENGLISH"
  }

  /** The instruction that fixes the language of the reply. */
  function Directive(lang: Language): string
  {
    DirectiveLead(lang) + LanguageName(lang) + "."
  }

  /** The words of the instruction before the language's name. */
  function DirectiveLead(lang: Language): string
  {
    "IMPORTANT: Provide the response " + (if lang == Id then "specifically in " else "in ")
  }

  lemma Regroup(a: string, b: string, c: string, d: string, e: string)
    ensures a + (b + c + d) + e == (a + b) + c + (d + e)
  {
  }

  /** One course: `- <name> (<category>): <grade>`. */
  function CourseLine(c: Course): string
  {
    "- " + c.name + " (" + c.category + "): " + IntToString(c.grade)
  }

  function CourseLines(cs: seq<Course>): (r: seq<string>)
    ensures |r| == |cs|
    ensures forall i :: 0 <= i < |cs| ==> r[i] == CourseLine(cs[i])
  {
    if |cs| == 0 then [] else [CourseLine(cs[0])] + CourseLines(cs[1..])
  }

  /** The course listing: one course line per course, separated by line breaks. */
  function CourseListing(cs: seq<Course>): string
  {
    Join(CourseLines(cs), "\n")
  }

  /** The fixed lines of the template. */
  const IntroLine: string :=
    "    Act as an advanced Academic Advisor AI. Analyze the following student profile and course grades to provide personalized learning recommendations."
  const StyleHint: string :=
    " (Prioritize recommendations that fit this style. E.g., Visual -> Videos/Diagrams, Auditory -> Podcasts/Lectures)"
  const GradesHeading: string := "    Course Grades (0-100 scale):"
  const TaskRemedial: string :=
    "    1. Identify courses where the student is struggling (< 75) and suggest remedial resources (Materials or Online Courses)."
  const TaskAdvance: string :=
    "    2. Suggest advancement opportunities for subjects they excel in (> 85)."
  const TaskGroups: string :=
    "    3. Recommend study groups or collaborative filtering strategies based on their major."
  const TaskStrategies: string :=
    "    4. Provide specific actionable learning strategies."

  /** The lines of the prompt template, before the interpolated values are
      joined by line breaks: the opening with the language directive, the
      profile, then the courses and the task. The template starts with a line
      break and ends with the indentation of its closing line. */
  function PromptLines(p: StudentProfile, cs: seq<Course>, lang: Language): (r: seq<string>)
    ensures |r| == 22
  {
    OpeningLines(lang) + (ProfileLines(p) + CourseAndTaskLines(cs))
  }

  /** Lines 0-5 of the template. */
  function OpeningLines(lang: Language): seq<string>
  {
    [ "", IntroLine, "    ", "    " + Directive(lang), "", "    Student Profile:" ]
  }

  /** Lines 6-11 of the template. */
  function ProfileLines(p: StudentProfile): seq<string>
  {
    [ "    - Name: " + p.name,
      "    - Major: " + p.major,
      "    - Semester: " + IntToString(p.semester),
      "    - Learning Style: " + LearningStyleName(p.learningStyle) + StyleHint,
      "    - Interests: " + Join(p.interests, ", "),
      "    - Weaknesses/Struggles: " + Join(p.weaknesses, ", ") ]
  }

  /** Lines 12-21 of the template. */
  function CourseAndTaskLines(cs: seq<Course>): seq<string>
  {
    [ "",
      GradesHeading,
      "    " + CourseListing(cs),
      "",
      "    Task:",
      TaskRemedial,
      TaskAdvance,
      TaskGroups,
      TaskStrategies,
      "  " ]
  }

  /** Where each interpolated line sits in the template. */
  lemma PromptLineAt(p: StudentProfile, cs: seq<Course>, lang: Language)
    ensures PromptLines(p, cs, lang)[3] == "    " + Directive(lang)
    ensures forall k :: 0 <= k < 6 ==> PromptLines(p, cs, lang)[6 + k] == ProfileLines(p)[k]
    ensures PromptLines(p, cs, lang)[13] == GradesHeading
    ensures PromptLines(p, cs, lang)[14] == "    " + CourseListing(cs)
  {
    var a, b, c := OpeningLines(lang), ProfileLines(p), CourseAndTaskLines(cs);
    assert (a + (b + c))[3] == a[3];
    assert (a + (b + c))[13] == (b + c)[7] == c[1];
    assert (a + (b + c))[14] == (b + c)[8] == c[2];
  }

  /** The prompt sent to the model: a function of the profile, the courses and
      the language alone. */
  function Prompt(p: StudentProfile, cs: seq<Course>, lang: Language): string
  {
    Join(PromptLines(p, cs, lang), "\n")
  }

  /** The fourth template line holds the selected language's directive, which
      names that language; the other language's directive is not there, and
      every other line of the prompt is the same for both languages. */
  lemma PromptDirective(p: StudentProfile, cs: seq<Course>, lang: Language, other: Language)
    ensures PromptLines(p, cs, lang)[3] == "    " + Directive(lang)
    ensures other != lang ==> PromptLines(p, cs, lang)[3] != "    " + Directive(other)
    ensures forall i :: 0 <= i < 22 && i != 3 ==> PromptLines(p, cs, lang)[i] == PromptLines(p, cs, other)[i]
  {
    PromptLineAt(p, cs, lang);
    if other != lang {
      assert |Directive(lang)| != |Directive(other)|;
    }
    var a, a', rest := OpeningLines(lang), OpeningLines(other), ProfileLines(p) + CourseAndTaskLines(cs);
    forall i | 0 <= i < 22 && i != 3
      ensures PromptLines(p, cs, lang)[i] == PromptLines(p, cs, other)[i]
    {
      if i < 6 {
        assert (a + rest)[i] == a[i] && (a' + rest)[i] == a'[i];
      } else {
        assert (a + rest)[i] == rest[i - 6] == (a' + rest)[i];
      }
    }
  }

  /** The prompt names the selected language. */
  lemma PromptNamesLanguage(p: StudentProfile, cs: seq<Course>, lang: Language)
    ensures Contains(Prompt(p, cs, lang), LanguageName(lang))
  {
    var lines := PromptLines(p, cs, lang);
    PromptLineAt(p, cs, lang);
    JoinShowsLine(lines, "\n", 3);
    var front := "    " + DirectiveLead(lang);
    Regroup("    ", DirectiveLead(lang), LanguageName(lang), ".", "\n");
    ContainsInfix(front, LanguageName(lang), "." + "\n");
    ContainsTransitive(Prompt(p, cs, lang), lines[3] + "\n", LanguageName(lang));
  }

  /** Name, major, semester and learning style appear verbatim after their
      labels, each followed by a line break, the learning style followed by
      the resource hint. */
  lemma PromptShowsProfile(p: StudentProfile, cs: seq<Course>, lang: Language)
    ensures Contains(Prompt(p, cs, lang), "    - Name: " + p.name + "\n")
    ensures Contains(Prompt(p, cs, lang), "    - Major: " + p.major + "\n")
    ensures Contains(Prompt(p, cs, lang), "    - Semester: " + IntToString(p.semester) + "\n")
    ensures Contains(Prompt(p, cs, lang), "    - Learning Style: " + LearningStyleName(p.learningStyle) + StyleHint + "\n")
  {
    var lines, b := PromptLines(p, cs, lang), ProfileLines(p);
    PromptLineAt(p, cs, lang);
    assert lines[6] == b[0] && lines[7] == b[1] && lines[8] == b[2] && lines[9] == b[3];
    JoinShowsLine(lines, "\n", 6);
    JoinShowsLine(lines, "\n", 7);
    JoinShowsLine(lines, "\n", 8);
    JoinShowsLine(lines, "\n", 9);
  }

  /** Interests and weaknesses appear as their ", "-joined text after their
      labels, each followed by a line break; an empty list leaves nothing
      after the label. */
  lemma PromptShowsTags(p: StudentProfile, cs: seq<Course>, lang: Language)
    ensures Contains(Prompt(p, cs, lang), "    - Interests: " + Join(p.interests, ", ") + "\n")
    ensures Contains(Prompt(p, cs, lang), "    - Weaknesses/Struggles: " + Join(p.weaknesses, ", ") + "\n")
    ensures |p.interests| == 0 ==> Contains(Prompt(p, cs, lang), "    - Interests: \n")
    ensures |p.weaknesses| == 0 ==> Contains(Prompt(p, cs, lang), "    - Weaknesses/Struggles: \n")
  {
    var lines, b := PromptLines(p, cs, lang), ProfileLines(p);
    PromptLineAt(p, cs, lang);
    assert lines[10] == b[4] && lines[11] == b[5];
    JoinShowsLine(lines, "\n", 10);
    JoinShowsLine(lines, "\n", 11);
    if |p.interests| == 0 {
      assert lines[10] + "\n" == "    - Interests: \n";
    }
    if |p.weaknesses| == 0 {
      assert lines[11] + "\n" == "    - Weaknesses/Struggles: \n";
    }
  }

  /** The course listing appears, indented, on the line after its heading. */
  lemma PromptShowsCourses(p: StudentProfile, cs: seq<Course>, lang: Language)
    ensures Contains(Prompt(p, cs, lang), GradesHeading + "\n" + ("    " + CourseListing(cs) + "\n"))
  {
    PromptLineAt(p, cs, lang);
    JoinShowsTwoLines(PromptLines(p, cs, lang), "\n", 13);
  }

  /** The course listing has exactly one line per course, in input order,
      provided names and categories hold no line break; no courses give an
      empty listing. */
  lemma {:induction false} CourseListingLines(cs: seq<Course>)
    ensures |cs| == 0 ==> CourseListing(cs) == ""
    ensures |cs| >= 1 && (forall i :: 0 <= i < |cs| ==> '\n' !in cs[i].name && '\n' !in cs[i].category)
            ==> Split(CourseListing(cs), '\n') == CourseLines(cs)
  {
    if |cs| >= 1 && (forall i :: 0 <= i < |cs| ==> '\n' !in cs[i].name && '\n' !in cs[i].category) {
      var lines := CourseLines(cs);
      forall i | 0 <= i < |lines| ensures '\n' !in lines[i] {
        CourseLineSingle(cs[i]);
      }
      SplitJoin(lines, '\n');
    }
  }

  /** A course whose name and category hold no line break renders on one line. */
  lemma CourseLineSingle(c: Course)
    requires '\n' !in c.name && '\n' !in c.category
    ensures '\n' !in CourseLine(c)
  {
    IntToStringSingleLine(c.grade);
  }

  /** A course line as it appears in the prompt. */
  lemma CourseLineExample()
    ensures CourseLine(Course("c1", "Logika Matematika", 45, 3, "Core")) == "- Logika Matematika (Core): 45"
  {
    assert IntToString(45) == NatToString(4) + [DigitChar(5)];
  }

  // ---------------------------------------------------------------------------
  // Outcome of the call

  /** What the transport produced: it threw (network, credential, service
      error), or it answered with a possibly missing text. */
  datatype Transport = Threw | Responded(text: Option<string>)

  /** The single error message a caller sees, whatever went wrong. */
  function FailureMessage(lang: Language): (m: string)
    ensures |m| > 0
  {
    match lang
    case Id => FailureId
    case En => FailureEn
  }

  const FailureId: string := "Gagal menghasilkan rekomendasi. Periksa koneksi atau kunci API Anda."
  const FailureEn: string := "Failed to generate recommendations. Please check your connection and API key."

  /** The try/catch around the call: a missing or empty text, a thrown
      transport error and a parse failure all become `FailureMessage(lang)`;
      otherwise the parsed value is returned as it is. */
  function Outcome<R>(lang: Language, reply: Transport, parse: string -> Option<R>): (r: Result<R, string>)
    ensures r.Failure? ==> r.error == FailureMessage(lang)
    ensures r.Success? <==>
      reply.Responded? && reply.text.Some? && reply.text.value != "" && parse(reply.text.value).Some?
    ensures r.Success? ==> r.value == parse(reply.text.value).value
  {
    match reply
    case Threw => Failure(FailureMessage(lang))
    case Responded(text) =>
      if text.None? || text.value == "" then Failure(FailureMessage(lang))
      else
        match parse(text.value)
        case None => Failure(FailureMessage(lang))
        case Some(data) => Success(data)
  }

  /** `generateRecommendations`: one call carrying the prompt, then the outcome
      mapping. */
  function GenerateRecommendations<R>(
    p: StudentProfile, cs: seq<Course>, lang: Language,
    send: string -> Transport, parse: string -> Option<R>): (r: Result<R, string>)
    ensures r.Failure? ==> r.error == FailureMessage(lang)
    ensures r.Success? <==>
      var reply := send(Prompt(p, cs, lang));
      reply.Responded? && reply.text.Some? && reply.text.value != "" && parse(reply.text.value).Some?
    ensures r.Success? ==> r.value == parse(send(Prompt(p, cs, lang)).text.value).value
  {
    var prompt := Prompt(p, cs, lang);
    Outcome(lang, send(prompt), parse)
  }

  /** Failures are indistinguishable to the caller: two failed calls in the same
      language report the same message, whatever caused them, and the message
      differs between the two languages. */
  lemma FailuresLookAlike<R>(lang: Language, r1: Transport, p1: string -> Option<R>,
                             r2: Transport, p2: string -> Option<R>)
    requires Outcome(lang, r1, p1).Failure? && Outcome(lang, r2, p2).Failure?
    ensures Outcome(lang, r1, p1) == Outcome(lang, r2, p2)
    ensures FailureMessage(En) != FailureMessage(Id)
  {
    assert |FailureMessage(En)| != |FailureMessage(Id)|;
  }

  /** No validation follows the parse: a reply whose kind is outside the four
      names and whose score is outside 0-100 is returned unchanged, with its
      recommendations in the order received. */
  lemma NoValidationAfterParse(lang: Language, text: string, data: AnalysisResult)
    requires text != ""
    ensures Outcome(lang, Responded(Some(text)), (s: string) => Some(data)) == Success(data)
    ensures var odd := Recommendation("r1", "Listen", "Podcast", "", None, 150, "");
      !WellFormed(odd) &&
      Outcome(lang, Responded(Some(text)), (s: string) => Some(AnalysisResult("", [odd, odd])))
        == Success(AnalysisResult("", [odd, odd]))
  {
  }
}

=== FILE: profile_editor.dfy ===
/** The profile editor: a local copy of the profile and the course list that
    the handlers edit in place, the grade-point average computed on save, and
    the comma-separated text fields for interests and weaknesses. */
module ProfileEditing {
  import opened Seqs
  import opened Text
  import opened Types

  // ---------------------------------------------------------------------------
  // Grade points and the credit-weighted average

  /** Points earned by a course grade: a step function of the grade. */
  function GradePoints(grade: int): (pts: int)
    ensures 0 <= pts <= 4
    ensures pts == 4 <==> grade >= 85
    ensures pts == 3 <==> 75 <= grade < 85
    ensures pts == 2 <==> 65 <= grade < 75
    ensures pts == 1 <==> 50 <= grade < 65
    ensures pts == 0 <==> grade < 50
  {
    if grade >= 85 then 4
    else if grade >= 75 then 3
    else if grade >= 65 then 2
    else if grade >= 50 then 1
    else 0
  }

  /** The grades at which the points step up. */
  const GradeSteps: seq<int> := [50, 65, 75, 85]

  /** A better grade never earns fewer points, and two grades on the same side
      of every step earn the same points. */
  lemma GradePointsMonotone(g1: int, g2: int)
    ensures g1 <= g2 ==> GradePoints(g1) <= GradePoints(g2)
    ensures (forall k :: 0 <= k < |GradeSteps| ==> (g1 < GradeSteps[k] <==> g2 < GradeSteps[k]))
            ==> GradePoints(g1) == GradePoints(g2)
  {
    if forall k :: 0 <= k < |GradeSteps| ==> (g1 < GradeSteps[k] <==> g2 < GradeSteps[k]) {
      assert GradeSteps[0] == 50 && GradeSteps[1] == 65 && GradeSteps[2] == 75 && GradeSteps[3] == 85;
    }
  }

  /** Sum of the credits of all courses; never negative when no course has
      negative credits. */
  function TotalCredits(cs: seq<Course>): (t: int)
    ensures NonNegativeCredits(cs) ==> t >= 0
  {
    if |cs| == 0 then 0 else cs[0].credits + TotalCredits(cs[1..])
  }

  /** Sum of grade points times credits. */
  function WeightedPoints(cs: seq<Course>): int
  {
    if |cs| == 0 then 0 else GradePoints(cs[0].grade) * cs[0].credits + WeightedPoints(cs[1..])
  }

  predicate NonNegativeCredits(cs: seq<Course>)
  {
    forall i :: 0 <= i < |cs| ==> cs[i].credits >= 0
  }

  /** The average saved with the profile: weighted points over total credits,
      and 0 when the courses carry no credits. */
  function Gpa(cs: seq<Course>): (g: real)
    ensures TotalCredits(cs) <= 0 ==> g == 0.0
    ensures TotalCredits(cs) > 0 ==> g * TotalCredits(cs) as real == WeightedPoints(cs) as real
  {
    var total := TotalCredits(cs);
    if total > 0 then WeightedPoints(cs) as real / total as real else 0.0
  }

  /** With non-negative credits the weighted points lie between 0 and four
      times the credits. */
  lemma {:induction false} WeightedPointsBounds(cs: seq<Course>)
    requires NonNegativeCredits(cs)
    ensures 0 <= WeightedPoints(cs) <= 4 * TotalCredits(cs)
  {
    if |cs| > 0 {
      WeightedPointsBounds(cs[1..]);
      var pts, cr := GradePoints(cs[0].grade), cs[0].credits;
      assert 0 <= pts * cr <= 4 * cr by {
        assert 0 <= pts <= 4 && cr >= 0;
        assert pts * cr <= 4 * cr by {
          assert (4 - pts) * cr >= 0;
        }
      }
    }
  }

  /** With non-negative credits the saved average lies in [0, 4]. */
  lemma GpaBounds(cs: seq<Course>)
    requires NonNegativeCredits(cs)
    ensures 0.0 <= Gpa(cs) <= 4.0
  {
    WeightedPointsBounds(cs);
    var total := TotalCredits(cs);
    if total > 0 {
      QuotientBounds(WeightedPoints(cs) as real, total as real);
    }
  }

  lemma QuotientBounds(w: real, t: real)
    requires t > 0.0 && 0.0 <= w <= 4.0 * t
    ensures 0.0 <= w / t <= 4.0
  {
    var q := w / t;
    assert q * t == w;
  }

  /** The five courses of the initial data set. */
  const InitialCourses: seq<Course> := [
    Course("1", "Data Structures & Algorithms", 88, 4, "Core"),
    Course("2", "Calculus II", 65, 3, "Core"),
    Course("3", "Introduction to Psychology", 92, 3, "Elective"),
    Course("4", "Database Management", 78, 3, "Core"),
    Course("5", "Physics I", 72, 4, "Core")
  ]

  /** On the initial courses: 51 weighted points over 17 credits, an average of 3. */
  lemma InitialCoursesGpa()
    ensures TotalCredits(InitialCourses) == 17
    ensures WeightedPoints(InitialCourses) == 51
    ensures Gpa(InitialCourses) == 3.0
  {
    var cs := InitialCourses;
    assert TotalCredits(cs[4..]) == 4;
    assert TotalCredits(cs[3..]) == 7;
    assert TotalCredits(cs[2..]) == 10;
    assert TotalCredits(cs[1..]) == 13;
    assert WeightedPoints(cs[4..]) == 8;
    assert WeightedPoints(cs[3..]) == 17;
    assert WeightedPoints(cs[2..]) == 29;
    assert WeightedPoints(cs[1..]) == 35;
  }

  // ---------------------------------------------------------------------------
  // Edits

  /** The profile fields the form edits, each with its new value. */
  datatype ProfileEdit =
    | SetName(name: string)
    | SetMajor(major: string)
    | SetSemester(semester: int)
    | SetLearningStyle(style: LearningStyle)
    | SetInterests(interests: seq<string>)
    | SetWeaknesses(weaknesses: seq<string>)

  /** Replaces the one field the edit names; every other field stays. */
  function ApplyProfileEdit(p: StudentProfile, e: ProfileEdit): (r: StudentProfile)
    ensures r.id == p.id && r.email == p.email && r.gpa == p.gpa
    ensures r.name == (if e.SetName? then e.name else p.name)
    ensures r.major == (if e.SetMajor? then e.major else p.major)
    ensures r.semester == (if e.SetSemester? then e.semester else p.semester)
    ensures r.learningStyle == (if e.SetLearningStyle? then e.style else p.learningStyle)
    ensures r.interests == (if e.SetInterests? then e.interests else p.interests)
    ensures r.weaknesses == (if e.SetWeaknesses? then e.weaknesses else p.weaknesses)
  {
    match e
    case SetName(v) => p.(name := v)
    case SetMajor(v) => p.(major := v)
    case SetSemester(v) => p.(semester := v)
    case SetLearningStyle(v) => p.(learningStyle := v)
    case SetInterests(v) => p.(interests := v)
    case SetWeaknesses(v) => p.(weaknesses := v)
  }

  /** Which field an edit targets. */
  function EditedField(e: ProfileEdit): nat
  {
    match e
    case SetName(_) => 0
    case SetMajor(_) => 1
    case SetSemester(_) => 2
    case SetLearningStyle(_) => 3
    case SetInterests(_) => 4
    case SetWeaknesses(_) => 5
  }

  /** Edits overwrite one field: repeating an edit changes nothing more, and
      edits of different fields can be applied in either order. */
  lemma ProfileEditsOverwrite(p: StudentProfile, e1: ProfileEdit, e2: ProfileEdit)
    ensures ApplyProfileEdit(ApplyProfileEdit(p, e1), e1) == ApplyProfileEdit(p, e1)
    ensures EditedField(e1) != EditedField(e2) ==>
      ApplyProfileEdit(ApplyProfileEdit(p, e1), e2) == ApplyProfileEdit(ApplyProfileEdit(p, e2), e1)
    ensures EditedField(e1) == EditedField(e2) ==>
      ApplyProfileEdit(ApplyProfileEdit(p, e1), e2) == ApplyProfileEdit(p, e2)
  {
  }

  /** The course fields the table edits, each with its new value. */
  datatype CourseEdit =
    | SetCourseName(name: string)
    | SetGrade(grade: int)
    | SetCredits(credits: int)
    | SetCategory(category: string)

  /** Replaces the one course field the edit names; every other field stays. */
  function ApplyCourseEdit(c: Course, e: CourseEdit): (r: Course)
    ensures r.id == c.id
    ensures r.name == (if e.SetCourseName? then e.name else c.name)
    ensures r.grade == (if e.SetGrade? then e.grade else c.grade)
    ensures r.credits == (if e.SetCredits? then e.credits else c.credits)
    ensures r.category == (if e.SetCategory? then e.category else c.category)
  {
    match e
    case SetCourseName(v) => c.(name := v)
    case SetGrade(v) => c.(grade := v)
    case SetCredits(v) => c.(credits := v)
    case SetCategory(v) => c.(category := v)
  }

  /** Applies the edit to every course with the given id, in place in the list. */
  function UpdateCourses(cs: seq<Course>, id: string, e: CourseEdit): (r: seq<Course>)
    ensures |r| == |cs|
    ensures forall i :: 0 <= i < |cs| ==> r[i].id == cs[i].id
    ensures forall i :: 0 <= i < |cs| && cs[i].id != id ==> r[i] == cs[i]
    ensures forall i :: 0 <= i < |cs| && cs[i].id == id ==> r[i] == ApplyCourseEdit(cs[i], e)
  {
    if |cs| == 0 then []
    else [if cs[0].id == id then ApplyCourseEdit(cs[0], e) else cs[0]] + UpdateCourses(cs[1..], id, e)
  }

  /** An edit of an absent id changes nothing, and repeating an edit changes
      nothing more. */
  lemma UpdateCoursesProperties(cs: seq<Course>, id: string, e: CourseEdit)
    ensures (forall i :: 0 <= i < |cs| ==> cs[i].id != id) ==> UpdateCourses(cs, id, e) == cs
    ensures UpdateCourses(UpdateCourses(cs, id, e), id, e) == UpdateCourses(cs, id, e)
  {
  }

  /** The course `addCourse` appends, under a freshly drawn id. */
  function NewCourse(id: string): Course
  {
    Course(id, "New Course", 0, 3, "Core")
  }

  /** Removes every course with the id; the others stay in order. */
  function RemoveCourses(cs: seq<Course>, id: string): (r: seq<Course>)
    ensures forall c :: c in r ==> c.id != id
    ensures forall c :: c in cs && c.id != id ==> c in r
    ensures forall c :: multiset(r)[c] == if c.id != id then multiset(cs)[c] else 0
    ensures IsSubsequence(r, cs)
  {
    Filter(cs, (c: Course) => c.id != id)
  }

  /** Removing an id that no course has is a no-op. */
  lemma RemoveAbsentId(cs: seq<Course>, id: string)
    requires forall i :: 0 <= i < |cs| ==> cs[i].id != id
    ensures RemoveCourses(cs, id) == cs
  {
    FilterKeepsAll(cs, (c: Course) => c.id != id);
  }

  // ---------------------------------------------------------------------------
  // Interests and weaknesses as text

  /** The text shown in the input: the tags joined by ", ". */
  function TagsText(tags: seq<string>): string
  {
    Join(tags, ", ")
  }

  /** The tags read back from the input: split at every comma, each piece trimmed. */
  function ParseTags(text: string): (r: seq<string>)
    ensures |r| >= 1
    ensures forall i :: 0 <= i < |r| ==> IsTrimmed(r[i]) && ',' !in r[i]
  {
    var pieces := Split(text, ',');
    var r := TrimAll(pieces);
    forall i | 0 <= i < |r| ensures IsTrimmed(r[i]) && ',' !in r[i] {
      TrimSpec(pieces[i]);
      TrimIsInfix(pieces[i]);
    }
    r
  }

  /** What `trim` keeps is a slice of its input. */
  lemma TrimIsInfix(s: string)
    ensures forall c :: c in Trim(s) ==> c in s
  {
    var t := TrimStart(s);
    assert forall c :: c in TrimEnd(t) ==> c in t;
    assert forall c :: c in t ==> c in s;
  }

  /** Trimming a list element by element, one element at a time. */
  lemma TrimAllCons(x: string, xs: seq<string>)
    ensures TrimAll([x] + xs) == [Trim(x)] + TrimAll(xs)
  {
    assert ([x] + xs)[1..] == xs;
  }

  /** A blank in front of the text does not change the parsed tags. */
  lemma ParseTagsLeadingBlank(t: string)
    ensures ParseTags([' '] + t) == ParseTags(t)
  {
    var pieces := Split(t, ',');
    var head, tail := pieces[0], pieces[1..];
    assert pieces == [head] + tail;
    SplitCons(' ', t, ',');
    assert Split([' '] + t, ',') == [[' '] + head] + tail;
    TrimAllCons([' '] + head, tail);
    TrimAllCons(head, tail);
    TrimLeadingBlank(head);
  }

  /** A comma ends the first tag; what follows it parses on its own. */
  lemma ParseTagsAfterComma(a: string, t: string)
    requires ',' !in a
    ensures ParseTags(a + [','] + t) == [Trim(a)] + ParseTags(t)
  {
    SplitAtFirst(a, ',', t);
    TrimAllCons(a, Split(t, ','));
  }

  /** Showing the tags and reading them back gives the same tags, provided
      there is at least one tag and every tag is trimmed and comma-free. */
  lemma {:induction false} TagsRoundTrip(tags: seq<string>)
    requires |tags| >= 1
    requires forall i :: 0 <= i < |tags| ==> IsTrimmed(tags[i]) && ',' !in tags[i]
    ensures ParseTags(TagsText(tags)) == tags
  {
    TrimSpec(tags[0]);
    if |tags| == 1 {
      SplitNoSeparator(tags[0], ',');
      assert TrimAll([tags[0]]) == tags;
    } else {
      var rest := TagsText(tags[1..]);
      TagsRoundTrip(tags[1..]);
      TagsTextCons(tags);
      ParseTagsAfterComma(tags[0], [' '] + rest);
      ParseTagsLeadingBlank(rest);
      SeqCons(tags);
    }
  }

  /** The text of two or more tags is the first tag, a comma, a blank and the
      text of the others. */
  lemma TagsTextCons(tags: seq<string>)
    requires |tags| >= 2
    ensures TagsText(tags) == tags[0] + [','] + ([' '] + TagsText(tags[1..]))
  {
  }

  /** An empty list shows as empty text, which reads back as one empty tag. */
  lemma EmptyTagsText()
    ensures TagsText([]) == ""
    ensures ParseTags(TagsText([])) == [""]
  {
  }

  // ---------------------------------------------------------------------------
  // The editor's local state

  class ProfileEditor {
    var localProfile: StudentProfile
    var localCourses: seq<Course>

    /** The editor starts from the profile and courses it is given. */
    constructor (profile: StudentProfile, courses: seq<Course>)
      ensures localProfile == profile && localCourses == courses
    {
      localProfile := profile;
      localCourses := courses;
    }

    method HandleProfileChange(e: ProfileEdit)
      modifies this
      ensures localProfile == ApplyProfileEdit(old(localProfile), e)
      ensures localCourses == old(localCourses)
    {
      localProfile := ApplyProfileEdit(localProfile, e);
    }

    method HandleCourseChange(id: string, e: CourseEdit)
      modifies this
      ensures localCourses == UpdateCourses(old(localCourses), id, e)
      ensures localProfile == old(localProfile)
    {
      localCourses := UpdateCourses(localCourses, id, e);
    }

    /** Appends one new course; `newId` stands for the random id. */
    method AddCourse(newId: string)
      modifies this
      ensures localCourses == old(localCourses) + [NewCourse(newId)]
      ensures localProfile == old(localProfile)
    {
      localCourses := localCourses + [NewCourse(newId)];
    }

    method RemoveCourse(id: string)
      modifies this
      ensures localCourses == RemoveCourses(old(localCourses), id)
      ensures localProfile == old(localProfile)
    {
      localCourses := RemoveCourses(localCourses, id);
    }

    /** What `saveAll` hands on: the local profile with only the average
        replaced, and the local courses as they are. */
    method SaveAll() returns (saved: StudentProfile, courses: seq<Course>)
      ensures saved.(gpa := localProfile.gpa) == localProfile
      ensures saved.gpa == Gpa(localCourses)
      ensures NonNegativeCredits(localCourses) ==> 0.0 <= saved.gpa <= 4.0
      ensures courses == localCourses
    {
      saved := localProfile.(gpa := Gpa(localCourses));
      courses := localCourses;
      if NonNegativeCredits(localCourses) {
        GpaBounds(localCourses);
      }
    }
  }
}

=== FILE: recommendations.dfy ===
/** The recommendations panel: the request life cycle (loading, error,
    result), which parts of the panel show in each state, and how each
    recommendation card is decorated. */
module Recommendations {
  import opened Wrappers
  import opened Types
  import opened GeminiService

  // ---------------------------------------------------------------------------
  // Card decorations

  datatype Icon = Video | Book | Users | Lightbulb | Sparkles

  /** The icon of each known kind; no known kind gets the fallback. */
  function KindIcon(k: RecommendationType): (i: Icon)
    ensures i != Sparkles
  {
    match k
    case OnlineCourse => Video
    case StudyMaterial => Book
    case StudyGroup => Users
    case LearningStrategy => Lightbulb
  }

  /** The icon of a card, chosen by comparing the raw kind string with the
      four kind names; any other string gets the fallback icon. */
  function TypeIcon(kind: string): (i: Icon)
    ensures i == Sparkles <==> ParseRecommendationType(kind).None?
    ensures forall k :: kind == RecommendationTypeName(k) ==> i == KindIcon(k)
  {
    if kind == "Online Course" then Video
    else if kind == "Study Material" then Book
    else if kind == "Study Group" then Users
    else if kind == "Learning Strategy" then Lightbulb
    else Sparkles
  }

  /** A well-formed recommendation never gets the fallback icon. */
  lemma WellFormedHasKindIcon(r: Recommendation)
    requires WellFormed(r)
    ensures TypeIcon(r.kind) == KindIcon(ParseRecommendationType(r.kind).value)
    ensures TypeIcon(r.kind) != Sparkles
  {
  }

  datatype Badge = RedBadge | OrangeBadge | GreenBadge

  /** The relevance badge: red from 90, orange from 70, green below. */
  function RelevanceColor(score: int): (b: Badge)
    ensures b == RedBadge <==> score >= 90
    ensures b == OrangeBadge <==> 70 <= score < 90
    ensures b == GreenBadge <==> score < 70
  {
    if score >= 90 then RedBadge else if score >= 70 then OrangeBadge else GreenBadge
  }

  /** The urgency of a badge: green, then orange, then red. */
  function BadgeRank(b: Badge): nat
  {
    match b
    case GreenBadge => 0
    case OrangeBadge => 1
    case RedBadge => 2
  }

  /** A higher score never gets a less urgent badge. */
  lemma RelevanceColorMonotone(s1: int, s2: int)
    requires s1 <= s2
    ensures BadgeRank(RelevanceColor(s1)) <= BadgeRank(RelevanceColor(s2))
  {
  }

  // ---------------------------------------------------------------------------
  // Panel texts

  const FailedEn: string := "Failed to generate recommendations"
  const FailedId: string := "Gagal menghasilkan rekomendasi"

  /** The fallback error text, used when the error carries no message. */
  function FailedText(lang: Language): (m: string)
    ensures |m| > 0
  {
    match lang
    case En => FailedEn
    case Id => FailedId
  }

  datatype ButtonText = Analyzing | Regenerate | Analyze

  // ---------------------------------------------------------------------------
  // The panel's state

  /** What the reply text parses to, as the panel stores it: `None` for the
      JSON `null`, which the unchecked cast lets through and `setResult`
      stores as "no result". */
  type ParsedReply = Option<AnalysisResult>

  class RecommendationPanel {
    var result: Option<AnalysisResult>
    var loading: bool
    var error: Option<string>

    /** No result, not loading, no error. */
    constructor ()
      ensures result == None && !loading && error == None
    {
      result := None;
      loading := false;
      error := None;
    }

    /** The request starts: loading is shown and an earlier error is cleared;
        an earlier result is kept. */
    method Start()
      modifies this
      ensures loading && error == None && result == old(result)
    {
      loading := true;
      error := None;
    }

    /** The request ends: a parsed reply replaces the old result, a JSON
        `null` reply wiping it; an error records its message, or the fallback
        text when the message is empty, and keeps the old result; loading
        stops either way. */
    method Settle(outcome: Result<ParsedReply, string>, lang: Language)
      modifies this
      ensures !loading
      ensures outcome.Success? ==> result == outcome.value && error == old(error)
      ensures outcome.Failure? && outcome.error != "" ==> error == Some(outcome.error)
      ensures outcome.Failure? && outcome.error == "" ==> error == Some(FailedText(lang))
      ensures outcome.Failure? ==> result == old(result)
    {
      match outcome {
        case Success(data) =>
          result := data;
        case Failure(msg) =>
          error := Some(if msg != "" then msg else FailedText(lang));
      }
      loading := false;
    }

    /** One press of the button: start, call the service, settle. Since the
        service always fails with a non-empty message, the fallback text is
        never what the panel shows. A reply that parses to JSON `null` is a
        success that stores no result, so the empty state shows again. */
    method HandleGenerate(p: StudentProfile, cs: seq<Course>, lang: Language,
                          send: string -> Transport, parse: string -> Option<ParsedReply>)
      modifies this
      ensures !loading
      ensures GenerateRecommendations(p, cs, lang, send, parse).Success? ==>
                result == GenerateRecommendations(p, cs, lang, send, parse).value && error == None
      ensures GenerateRecommendations(p, cs, lang, send, parse).Failure? ==>
                error == Some(FailureMessage(lang)) && result == old(result)
      ensures error.Some? ==> error.value != FailedText(lang)
      ensures GenerateRecommendations(p, cs, lang, send, parse) == Success(None) ==> ShowEmptyState()
    {
      Start();
      var outcome := GenerateRecommendations(p, cs, lang, send, parse);
      Settle(outcome, lang);
      FailureTextDiffers(lang);
    }

    /** The button reads "analyzing" while the skeleton shows, "regenerate"
        while results show, and "analyze" otherwise. The button is disabled
        exactly while it reads "analyzing". */
    function ButtonLabel(): (b: ButtonText)
      reads this
      ensures b == Analyzing <==> ShowSkeleton()
      ensures b == Regenerate <==> ShowResults()
      ensures b == Analyze <==> !ShowSkeleton() && !ShowResults()
    {
      if loading then Analyzing else if result.Some? then Regenerate else Analyze
    }

    /** The error box shows a non-empty error. */
    predicate ShowError()
      reads this
    {
      error.Some? && error.value != ""
    }

    /** The empty state shows before any result, outside a request and without
        an error. */
    predicate ShowEmptyState()
      reads this
    {
      result.None? && !loading && !ShowError()
    }

    /** The skeleton shows during a request. */
    predicate ShowSkeleton()
      reads this
    {
      loading
    }

    /** The results show when a result exists and no request runs. */
    predicate ShowResults()
      reads this
    {
      result.Some? && !loading
    }

    /** The skeleton, the empty state and the results exclude one another,
        and the panel is never blank: one of them or the error shows. An
        error can show beside an earlier result. */
    function VisibleParts(): (n: nat)
      reads this
      ensures n == (if ShowSkeleton() then 1 else 0) + (if ShowEmptyState() then 1 else 0)
                 + (if ShowResults() then 1 else 0)
      ensures n <= 1
      ensures n == 0 <==> ShowError() && result.None? && !loading
    {
      if loading then 1 else if result.Some? then 1 else if ShowError() then 0 else 1
    }
  }

  /** The service's messages are not the panel's fallback texts. */
  lemma FailureTextDiffers(lang: Language)
    ensures FailureMessage(lang) != FailedText(lang)
    ensures FailureMessage(lang) != ""
  {
    assert |FailureMessage(lang)| != |FailedText(lang)|;
  }
}

=== FILE: seqs.dfy ===
/** The array operations the components lean on (`filter`, `find`), written
    once over sequences and proved once. */
module Seqs {
  import opened Wrappers

  /** `a` can be obtained from `b` by deleting elements: same order, gaps allowed. */
  predicate IsSubsequence<T(==)>(a: seq<T>, b: seq<T>)
    decreases |b|
  {
    |a| == 0 ||
    (|b| > 0 && ((a[0] == b[0] && IsSubsequence(a[1..], b[1..])) || IsSubsequence(a, b[1..])))
  }

  /** A non-empty sequence is its head followed by its tail. */
  lemma SeqCons<T>(xs: seq<T>)
    requires |xs| >= 1
    ensures [xs[0]] + xs[1..] == xs
  {
  }

  /** `Array.prototype.filter`: the elements satisfying `keep`, in their original
      order and with their original multiplicities, and nothing else. */
  function Filter<T(==,!new)>(xs: seq<T>, keep: T -> bool): (r: seq<T>)
    ensures |r| <= |xs|
    ensures forall x :: x in r <==> x in xs && keep(x)
    ensures forall x :: multiset(r)[x] == if keep(x) then multiset(xs)[x] else 0
    ensures IsSubsequence(r, xs)
  {
    if |xs| == 0 then []
    else
      var rest := Filter(xs[1..], keep);
      assert xs == [xs[0]] + xs[1..];
      if keep(xs[0]) then [xs[0]] + rest else rest
  }

  /** Filtering with a test every element passes changes nothing. */
  lemma {:induction false} FilterKeepsAll<T(!new)>(xs: seq<T>, keep: T -> bool)
    requires forall i :: 0 <= i < |xs| ==> keep(xs[i])
    ensures Filter(xs, keep) == xs
  {
    if |xs| > 0 {
      FilterKeepsAll(xs[1..], keep);
      assert xs == [xs[0]] + xs[1..];
    }
  }

  /** Two tests that agree on every element select the same elements. */
  lemma {:induction false} FilterAgree<T(!new)>(xs: seq<T>, k1: T -> bool, k2: T -> bool)
    requires forall i :: 0 <= i < |xs| ==> k1(xs[i]) == k2(xs[i])
    ensures Filter(xs, k1) == Filter(xs, k2)
  {
    if |xs| > 0 {
      FilterAgree(xs[1..], k1, k2);
    }
  }

  /** Nothing is kept exactly when every element fails the test. */
  lemma FilterNone<T(!new)>(xs: seq<T>, keep: T -> bool)
    ensures |Filter(xs, keep)| == 0 <==> forall i :: 0 <= i < |xs| ==> !keep(xs[i])
  {
    var r := Filter(xs, keep);
    if |r| > 0 {
      assert r[0] in r;
    }
    forall i | 0 <= i < |xs| && keep(xs[i]) ensures |r| > 0 {
      assert xs[i] in xs;
    }
  }

  /** An element that fails the test makes the result shorter than the input. */
  lemma {:induction false} FilterDrops<T(!new)>(xs: seq<T>, keep: T -> bool, i: nat)
    requires i < |xs| && !keep(xs[i])
    ensures |Filter(xs, keep)| < |xs|
  {
    var rest := Filter(xs[1..], keep);
    if i == 0 {
      assert Filter(xs, keep) == rest;
    } else {
      assert xs[1..][i - 1] == xs[i];
      FilterDrops(xs[1..], keep, i - 1);
      assert |Filter(xs, keep)| <= 1 + |rest|;
    }
  }

  /** Everything is kept exactly when every element passes the test. */
  lemma FilterAll<T(!new)>(xs: seq<T>, keep: T -> bool)
    ensures |Filter(xs, keep)| == |xs| <==> forall i :: 0 <= i < |xs| ==> keep(xs[i])
  {
    if forall i :: 0 <= i < |xs| ==> keep(xs[i]) {
      FilterKeepsAll(xs, keep);
    } else {
      var i :| 0 <= i < |xs| && !keep(xs[i]);
      FilterDrops(xs, keep, i);
    }
  }

  /** How many elements pass the test, counted one by one. */
  function Count<T>(xs: seq<T>, keep: T -> bool): nat
  {
    if |xs| == 0 then 0 else (if keep(xs[0]) then 1 else 0) + Count(xs[1..], keep)
  }

  /** Filtering keeps exactly as many elements as pass the test. */
  lemma {:induction false} FilterCount<T(!new)>(xs: seq<T>, keep: T -> bool)
    ensures |Filter(xs, keep)| == Count(xs, keep)
  {
    if |xs| > 0 {
      FilterCount(xs[1..], keep);
    }
  }

  /** The count of a concatenation is the sum of the parts' counts. */
  lemma {:induction false} CountConcat<T>(a: seq<T>, b: seq<T>, keep: T -> bool)
    ensures Count(a + b, keep) == Count(a, keep) + Count(b, keep)
  {
    if |a| == 0 {
      assert a + b == b;
    } else {
      CountConcat(a[1..], b, keep);
      assert (a + b)[1..] == a[1..] + b;
    }
  }

  /** The position of the element `Array.prototype.find` returns: the first
      position whose element satisfies `p`. */
  function FindFirst<T>(xs: seq<T>, p: T -> bool): (r: Option<nat>)
    ensures r.Some? ==> r.value < |xs| && p(xs[r.value])
    ensures r.Some? ==> forall j :: 0 <= j < r.value ==> !p(xs[j])
    ensures r.None? <==> forall j :: 0 <= j < |xs| ==> !p(xs[j])
  {
    if |xs| == 0 then None
    else if p(xs[0]) then Some(0)
    else
      match FindFirst(xs[1..], p)
      case None => None
      case Some(k) => Some(k + 1)
  }

  /** Two lists whose elements pass or fail the test alike, position by
      position, have their first passing element at the same position. */
  lemma {:induction false} FindFirstAgree<T>(xs: seq<T>, ys: seq<T>, p: T -> bool)
    requires |xs| == |ys|
    requires forall i :: 0 <= i < |xs| ==> p(xs[i]) == p(ys[i])
    ensures FindFirst(xs, p) == FindFirst(ys, p)
  {
    if |xs| > 0 && !p(xs[0]) {
      FindFirstAgree(xs[1..], ys[1..], p);
    }
  }
}

=== FILE: text.dfy ===
/** The string operations the components use: `join`, `split`, `trim`,
    `toLowerCase`, `includes`, and the decimal rendering of an integer inside a
    template string. */
module Text {

  // ---------------------------------------------------------------------------
  // join / split

  /** `Array.prototype.join(sep)`: the elements with `sep` between neighbours. */
  function Join(xs: seq<string>, sep: string): string
  {
    if |xs| == 0 then ""
    else if |xs| == 1 then xs[0]
    else xs[0] + sep + Join(xs[1..], sep)
  }

  /** `String.prototype.split(sep)` for a one-character separator: the maximal
      separator-free pieces; the empty string splits into one empty piece. */
  function Split(s: string, sep: char): (r: seq<string>)
    ensures |r| >= 1
    ensures forall i :: 0 <= i < |r| ==> sep !in r[i]
  {
    if |s| == 0 then [""]
    else
      var rest := Split(s[1..], sep);
      if s[0] == sep then [""] + rest else [[s[0]] + rest[0]] + rest[1..]
  }

  /** A piece without the separator is not split. */
  lemma {:induction false} SplitNoSeparator(a: string, sep: char)
    requires sep !in a
    ensures Split(a, sep) == [a]
  {
    if |a| > 0 {
      SplitNoSeparator(a[1..], sep);
      assert [a[0]] + a[1..] == a;
    }
  }

  /** Splitting at the first separator yields the text before it, then the rest. */
  lemma {:induction false} SplitAtFirst(a: string, sep: char, b: string)
    requires sep !in a
    ensures Split(a + [sep] + b, sep) == [a] + Split(b, sep)
  {
    var s := a + [sep] + b;
    if |a| == 0 {
      assert s[1..] == b;
    } else {
      assert s[1..] == a[1..] + [sep] + b;
      SplitAtFirst(a[1..], sep, b);
      assert [a[0]] + a[1..] == a;
    }
  }

  /** A leading non-separator joins the first piece. */
  lemma SplitCons(c: char, t: string, sep: char)
    requires c != sep
    ensures Split([c] + t, sep) == [[c] + Split(t, sep)[0]] + Split(t, sep)[1..]
  {
    assert ([c] + t)[1..] == t;
  }

  /** Splitting a join on the same one-character separator gives the pieces back,
      provided no piece contains the separator. */
  lemma {:induction false} SplitJoin(xs: seq<string>, sep: char)
    requires |xs| >= 1
    requires forall i :: 0 <= i < |xs| ==> sep !in xs[i]
    ensures Split(Join(xs, [sep]), sep) == xs
  {
    if |xs| == 1 {
      SplitNoSeparator(xs[0], sep);
    } else {
      SplitJoin(xs[1..], sep);
      SplitAtFirst(xs[0], sep, Join(xs[1..], [sep]));
      assert [xs[0]] + xs[1..] == xs;
    }
  }

  /** Joining the pieces of a split with the separator restores the text. */
  lemma {:induction false} JoinSplit(s: string, sep: char)
    ensures Join(Split(s, sep), [sep]) == s
  {
    if |s| > 0 {
      var rest := Split(s[1..], sep);
      JoinSplit(s[1..], sep);
      assert [s[0]] + s[1..] == s;
      if s[0] != sep && |rest| >= 2 {
        assert rest == [rest[0]] + rest[1..];
        assert Join(rest, [sep]) == rest[0] + [sep] + Join(rest[1..], [sep]);
      }
    }
  }

  /** A line of a join, followed by the separator, occurs in the joined text. */
  lemma {:induction false} JoinShowsLine(xs: seq<string>, sep: string, i: nat)
    requires i + 1 < |xs|
    ensures Contains(Join(xs, sep), xs[i] + sep)
  {
    if i == 0 {
      ContainsInfix("", xs[0] + sep, Join(xs[1..], sep));
      assert Join(xs, sep) == "" + (xs[0] + sep) + Join(xs[1..], sep);
    } else {
      JoinShowsLine(xs[1..], sep, i - 1);
      ContainsAfter(xs[0] + sep, Join(xs[1..], sep), xs[i] + sep);
      assert Join(xs, sep) == (xs[0] + sep) + Join(xs[1..], sep);
    }
  }

  /** Two neighbouring lines of a join, each followed by the separator, occur
      together in the joined text. */
  lemma {:induction false} JoinShowsTwoLines(xs: seq<string>, sep: string, i: nat)
    requires i + 2 < |xs|
    ensures Contains(Join(xs, sep), xs[i] + sep + (xs[i + 1] + sep))
  {
    if i == 0 {
      var rest := Join(xs[2..], sep);
      assert Join(xs[1..], sep) == xs[1] + sep + rest;
      assert Join(xs, sep) == "" + (xs[0] + sep + (xs[1] + sep)) + rest;
      ContainsInfix("", xs[0] + sep + (xs[1] + sep), rest);
    } else {
      JoinShowsTwoLines(xs[1..], sep, i - 1);
      ContainsAfter(xs[0] + sep, Join(xs[1..], sep), xs[i] + sep + (xs[i + 1] + sep));
      assert Join(xs, sep) == (xs[0] + sep) + Join(xs[1..], sep);
    }
  }

  // ---------------------------------------------------------------------------
  // trim

  /** The characters `String.prototype.trim` removes: the ECMAScript WhiteSpace
      and LineTerminator code points. */
  predicate IsSpace(c: char)
  {
    var k := c as int;
    (0x09 <= k <= 0x0D) || k == 0x20 || k == 0xA0 || k == 0x1680 ||
    (0x2000 <= k <= 0x200A) || k == 0x2028 || k == 0x2029 || k == 0x202F ||
    k == 0x205F || k == 0x3000 || k == 0xFEFF
  }

  /** Every character of `s` is white space. */
  predicate AllSpace(s: string)
  {
    |s| == 0 || (IsSpace(s[0]) && AllSpace(s[1..]))
  }

  /** `AllSpace` holds exactly when each position holds white space. */
  lemma {:induction false} AllSpaceAt(s: string)
    ensures AllSpace(s) <==> forall k :: 0 <= k < |s| ==> IsSpace(s[k])
  {
    if |s| > 0 {
      AllSpaceAt(s[1..]);
      assert forall k :: 1 <= k < |s| ==> s[k] == s[1..][k - 1];
    }
  }

  /** White space followed by one more white-space character. */
  lemma {:induction false} AllSpaceSnoc(a: string, c: char)
    requires AllSpace(a) && IsSpace(c)
    ensures AllSpace(a + [c])
  {
    if |a| > 0 {
      AllSpaceSnoc(a[1..], c);
      assert (a + [c])[1..] == a[1..] + [c];
    }
  }

  /** `s` without its leading white space. */
  function TrimStart(s: string): (r: string)
    ensures |r| <= |s| && r == s[|s| - |r|..]
    ensures |r| == 0 || !IsSpace(r[0])
  {
    if |s| > 0 && IsSpace(s[0]) then TrimStart(s[1..]) else s
  }

  /** `s` without its trailing white space. */
  function TrimEnd(s: string): (r: string)
    ensures |r| <= |s| && r == s[..|r|]
    ensures |r| == 0 || !IsSpace(r[|r| - 1])
  {
    if |s| > 0 && IsSpace(s[|s| - 1]) then TrimEnd(s[..|s| - 1]) else s
  }

  /** What `TrimStart` drops is white space. */
  lemma {:induction false} TrimStartDropsSpace(s: string)
    ensures AllSpace(s[..|s| - |TrimStart(s)|])
  {
    if |s| > 0 && IsSpace(s[0]) {
      TrimStartDropsSpace(s[1..]);
      assert s[..|s| - |TrimStart(s)|] == [s[0]] + s[1..][..|s| - 1 - |TrimStart(s[1..])|];
    }
  }

  /** What `TrimEnd` drops is white space. */
  lemma {:induction false} TrimEndDropsSpace(s: string)
    ensures AllSpace(s[|TrimEnd(s)|..])
  {
    if |s| > 0 && IsSpace(s[|s| - 1]) {
      var p := s[..|s| - 1];
      TrimEndDropsSpace(p);
      assert s[|TrimEnd(s)|..] == p[|TrimEnd(p)|..] + [s[|s| - 1]];
      AllSpaceSnoc(p[|TrimEnd(p)|..], s[|s| - 1]);
    }
  }

  /** `String.prototype.trim`. */
  function Trim(s: string): string
  {
    TrimEnd(TrimStart(s))
  }

  /** Neither end of `s` is white space: what `trim` leaves behind. */
  predicate IsTrimmed(s: string)
  {
    |s| == 0 || (!IsSpace(s[0]) && !IsSpace(s[|s| - 1]))
  }

  /** `trim` removes white space at both ends and nothing else: what remains
      is a slice of `s` with only white space outside it, and neither end of
      the slice is white space. */
  lemma TrimSpec(s: string)
    ensures exists i, j :: SliceBetweenSpaces(s, Trim(s), i, j)
    ensures IsTrimmed(Trim(s))
    ensures IsTrimmed(s) ==> Trim(s) == s
  {
    var t := TrimStart(s);
    var r := TrimEnd(t);
    if |r| > 0 {
      assert r[0] == t[0];
    }
    TrimStartDropsSpace(s);
    TrimEndDropsSpace(t);
    SuffixPrefixSlice(s, t, r);
    assert SliceBetweenSpaces(s, Trim(s), |s| - |t|, |s| - |t| + |r|);
  }

  /** `r` is `s[i..j]`, and only white space lies outside `[i, j)`. */
  predicate SliceBetweenSpaces(s: string, r: string, i: int, j: int)
  {
    0 <= i <= j <= |s| && r == s[i..j] && AllSpace(s[..i]) && AllSpace(s[j..])
  }

  /** A prefix `r` of a suffix `t` of `s`, with white space dropped on both
      sides, is a slice of `s` with white space on both sides. */
  lemma SuffixPrefixSlice(s: string, t: string, r: string)
    requires |t| <= |s| && t == s[|s| - |t|..] && AllSpace(s[..|s| - |t|])
    requires |r| <= |t| && r == t[..|r|] && AllSpace(t[|r|..])
    ensures SliceBetweenSpaces(s, r, |s| - |t|, |s| - |t| + |r|)
  {
    assert s[|s| - |t| + |r|..] == t[|r|..];
  }

  /** `trim` ignores one more leading blank. */
  lemma TrimLeadingBlank(s: string)
    ensures Trim([' '] + s) == Trim(s)
  {
    assert ([' '] + s)[1..] == s;
  }

  /** `xs.map(s => s.trim())`. */
  function TrimAll(xs: seq<string>): (r: seq<string>)
    ensures |r| == |xs|
    ensures forall i :: 0 <= i < |r| ==> r[i] == Trim(xs[i])
  {
    if |xs| == 0 then [] else [Trim(xs[0])] + TrimAll(xs[1..])
  }

  // ---------------------------------------------------------------------------
  // toLowerCase / includes

  /** Lower-casing of one character, ASCII letters only. */
  function LowerChar(c: char): (r: char)
    ensures 'A' <= c <= 'Z' ==> r as int == c as int + 32
    ensures !('A' <= c <= 'Z') ==> r == c
    ensures !('A' <= r <= 'Z')
  {
    if 'A' <= c <= 'Z' then (c as int + 32) as char else c
  }

  /** `String.prototype.toLowerCase` restricted to ASCII letters. */
  function ToLower(s: string): (r: string)
    ensures |r| == |s|
    ensures forall i :: 0 <= i < |s| && 'A' <= s[i] <= 'Z' ==> r[i] as int == s[i] as int + 32
    ensures forall i :: 0 <= i < |s| && !('A' <= s[i] <= 'Z') ==> r[i] == s[i]
  {
    seq(|s|, i requires 0 <= i < |s| => LowerChar(s[i]))
  }

  /** The two strings differ at most in the case of ASCII letters. */
  predicate SameIgnoringCase(a: string, b: string)
  {
    |a| == |b| &&
    forall i :: 0 <= i < |a| ==>
      a[i] == b[i] ||
      ('A' <= a[i] <= 'Z' && b[i] as int == a[i] as int + 32) ||
      ('A' <= b[i] <= 'Z' && a[i] as int == b[i] as int + 32)
  }

  /** Strings that differ only in letter case lower-case to the same string. */
  lemma SameIgnoringCaseLower(a: string, b: string)
    requires SameIgnoringCase(a, b)
    ensures ToLower(a) == ToLower(b)
  {
    forall i | 0 <= i < |a| ensures ToLower(a)[i] == ToLower(b)[i] {
    }
  }

  /** `String.prototype.includes`: `t` occurs in `s` at some position. */
  predicate Contains(s: string, t: string)
    decreases |s|
  {
    t <= s || (|s| > 0 && Contains(s[1..], t))
  }

  /** An occurrence at a known offset is found. */
  lemma {:induction false} ContainsInfix(a: string, t: string, b: string)
    ensures Contains(a + t + b, t)
  {
    if |a| > 0 {
      ContainsInfix(a[1..], t, b);
      assert (a + t + b)[1..] == a[1..] + t + b;
    } else {
      assert a + t + b == t + b;
    }
  }

  /** An occurrence survives adding text in front. */
  lemma {:induction false} ContainsAfter(a: string, b: string, t: string)
    requires Contains(b, t)
    ensures Contains(a + b, t)
  {
    if |a| > 0 {
      ContainsAfter(a[1..], b, t);
      assert (a + b)[1..] == a[1..] + b;
    } else {
      assert a + b == b;
    }
  }

  /** An occurrence inside an occurrence is an occurrence. */
  lemma ContainsTransitive(s: string, m: string, t: string)
    requires Contains(s, m) && Contains(m, t)
    ensures Contains(s, t)
  {
    ContainsAt(s, m);
    ContainsAt(m, t);
    var i :| OccursAt(s, m, i);
    var j :| OccursAt(m, t, j);
    forall k | 0 <= k < |t| ensures s[i + j + k] == t[k] {
      assert s[i + j + k] == s[i..i + |m|][j + k];
    }
    assert OccursAt(s, t, i + j);
    ContainsAt(s, t);
  }

  /** `t` occurs in `s` starting at offset `i`. */
  predicate OccursAt(s: string, t: string, i: int)
  {
    0 <= i <= |s| - |t| && s[i..i + |t|] == t
  }

  /** `includes` is exactly "occurs at some offset". */
  lemma {:induction false} ContainsAt(s: string, t: string)
    ensures Contains(s, t) <==> exists i :: OccursAt(s, t, i)
  {
    if t <= s {
      assert OccursAt(s, t, 0);
    } else if |s| > 0 {
      ContainsAt(s[1..], t);
      if Contains(s[1..], t) {
        var i :| OccursAt(s[1..], t, i);
        assert s[i + 1..i + 1 + |t|] == s[1..][i..i + |t|];
        assert OccursAt(s, t, i + 1);
      }
      if exists i :: OccursAt(s, t, i) {
        var i :| OccursAt(s, t, i);
        assert i != 0;
        assert s[1..][i - 1..i - 1 + |t|] == s[i..i + |t|];
        assert OccursAt(s[1..], t, i - 1);
      }
    }
  }

  // ---------------------------------------------------------------------------
  // integers in template strings

  function DigitChar(d: nat): (c: char)
    requires d < 10
    ensures '0' <= c <= '9' && c as int - '0' as int == d
  {
    (d + '0' as int) as char
  }

  /** The decimal digits of `n`, without leading zeros. */
  function NatToString(n: nat): (r: string)
    ensures |r| >= 1
    ensures forall i :: 0 <= i < |r| ==> '0' <= r[i] <= '9'
  {
    if n < 10 then [DigitChar(n)] else NatToString(n / 10) + [DigitChar(n % 10)]
  }

  /** `${n}` for an integral number. */
  function IntToString(n: int): (r: string)
    ensures |r| >= 1
    ensures forall i :: 0 <= i < |r| ==> r[i] == '-' || '0' <= r[i] <= '9'
  {
    if n < 0 then "-" + NatToString(-n) else NatToString(n)
  }

  /** The value of a string of decimal digits: the reading of `NatToString`. */
  function DigitsValue(s: string): int
  {
    if |s| == 0 then 0 else DigitsValue(s[..|s| - 1]) * 10 + (s[|s| - 1] as int - '0' as int)
  }

  /** Reading the digits back gives the number. */
  lemma {:induction false} NatToStringValue(n: nat)
    ensures DigitsValue(NatToString(n)) == n
  {
    if n >= 10 {
      NatToStringValue(n / 10);
      var r := NatToString(n);
      assert r[..|r| - 1] == NatToString(n / 10);
    }
  }

  /** The rendering of an integer never contains a line break. */
  lemma IntToStringSingleLine(n: int)
    ensures '\n' !in IntToString(n)
  {
    var r := IntToString(n);
    forall i | 0 <= i < |r| ensures r[i] != '\n' {
    }
  }
}

=== FILE: types.dfy ===
/** The domain records and closed enumerations shared by every component.

    The profile carries `id` and `email`, and `StudentData` and `UserRole`
    exist, because App.tsx and AdminStudentList.tsx use them although
    types.ts does not declare them. */
module Types {
  import opened Wrappers

  datatype LearningStyle = Visual | Auditory | ReadingWriting | Kinesthetic

  /** The string value of each `LearningStyle` member. */
  function LearningStyleName(s: LearningStyle): string
  {
    match s
    case Visual => "Visual"
    case Auditory => "Auditory"
    case ReadingWriting => "Reading/Writing"
    case Kinesthetic => "Kinesthetic"
  }

  /** Decoding of a `<select>` value back into a learning style. */
  function ParseLearningStyle(text: string): (r: Option<LearningStyle>)
    ensures r.Some? ==> LearningStyleName(r.value) == text
    ensures r.None? ==> forall s :: LearningStyleName(s) != text
  {
    if text == "Visual" then Some(Visual)
    else if text == "Auditory" then Some(Auditory)
    else if text == "Reading/Writing" then Some(ReadingWriting)
    else if text == "Kinesthetic" then Some(Kinesthetic)
    else None
  }

  /** Every learning style decodes from its own name. */
  lemma LearningStyleRoundTrip(s: LearningStyle)
    ensures ParseLearningStyle(LearningStyleName(s)) == Some(s)
  {
  }

  /** The two interface languages, `'en'` and `'id'`. */
  datatype Language = En | Id

  /** A course record; `grade` is documented as 0-100 but nothing enforces it. */
  datatype Course = Course(id: string, name: string, grade: int, credits: int, category: string)

  datatype StudentProfile = StudentProfile(
    id: string,
    email: string,
    name: string,
    major: string,
    semester: int,
    gpa: real,
    learningStyle: LearningStyle,
    interests: seq<string>,
    weaknesses: seq<string>)

  datatype RecommendationType = OnlineCourse | StudyMaterial | StudyGroup | LearningStrategy

  /** The string value of each `RecommendationType` member. */
  function RecommendationTypeName(k: RecommendationType): string
  {
    match k
    case OnlineCourse => "Online Course"
    case StudyMaterial => "Study Material"
    case StudyGroup => "Study Group"
    case LearningStrategy => "Learning Strategy"
  }

  /** Decoding of a wire string into a recommendation kind: a partial inverse
      of `RecommendationTypeName`. */
  function ParseRecommendationType(text: string): (r: Option<RecommendationType>)
    ensures r.Some? ==> RecommendationTypeName(r.value) == text
    ensures r.None? ==> forall k :: RecommendationTypeName(k) != text
  {
    if text == "Online Course" then Some(OnlineCourse)
    else if text == "Study Material" then Some(StudyMaterial)
    else if text == "Study Group" then Some(StudyGroup)
    else if text == "Learning Strategy" then Some(LearningStrategy)
    else None
  }

  /** The four kinds have pairwise different names, so every kind decodes from
      its name. */
  lemma RecommendationTypeRoundTrip(k: RecommendationType)
    ensures ParseRecommendationType(RecommendationTypeName(k)) == Some(k)
    ensures forall k' :: RecommendationTypeName(k') == RecommendationTypeName(k) ==> k' == k
  {
  }

  /** A recommendation as it arrives from the model. `kind` is the raw `type`
      string: the declared type is `RecommendationType`, but the value is only
      cast, never checked. `platformOrLink` is the one optional field. */
  datatype Recommendation = Recommendation(
    id: string,
    title: string,
    kind: string,
    description: string,
    platformOrLink: Option<string>,
    relevanceScore: int,
    reasoning: string)

  /** The field names of `Recommendation`, in declaration order. */
  const RecommendationFields: seq<string> :=
    ["id", "title", "type", "description", "platformOrLink", "relevanceScore", "reasoning"]

  /** The fields of `Recommendation` that may be absent. */
  const OptionalRecommendationFields: set<string> := {"platformOrLink"}

  /** What the declared types and comments promise of a recommendation: a known
      kind and a relevance score in 0-100. Nothing in the program checks it. */
  predicate WellFormed(r: Recommendation)
  {
    ParseRecommendationType(r.kind).Some? && 0 <= r.relevanceScore <= 100
  }

  datatype AnalysisResult = AnalysisResult(summary: string, recommendations: seq<Recommendation>)

  datatype StudentData = StudentData(profile: StudentProfile, courses: seq<Course>)

  datatype UserRole = Student | Admin
}

=== FILE: wrappers.dfy ===
/** Optional values and success/failure results, standing in for the
    `undefined`/`null` values and thrown errors of the original code. */
module Wrappers {

  datatype Option<+T> = None | Some(value: T) {
    /** `x || fallback` on a possibly-undefined value. */
    function GetOr(fallback: T): T {
      match this
      case Some(v) => v
      case None => fallback
    }
  }

  datatype Result<+R, +E> = Success(value: R) | Failure(error: E)
}
